=== FILE: README.md ===
# Semantic grid layout: a Dafny model

This project models the core of a Cytoscape "semantic grid" layout. The
layout sorts graph nodes into a two-dimensional grid of cells, one cell per
pair of an X category and a Y category. It then sizes the rows and columns
uniformly and tiles the cells in the plane. Two source files are covered:

- `src/utils.js`, `getNodeCategory`. It reads a node's category for one axis,
  either by calling an extractor function or by walking a dotted attribute
  path from `node.data()`. The first segment that reads as `undefined` gives
  `null`.
- `src/grid.js`, the `Cell` record and the `Grid` class:
  - the constructor, which chooses the category lists, creates one empty cell
    per pair, and assigns every node whose two categories are known;
  - `getCategories`: the distinct non-`null` values, in first-seen order (an
    extractor's `undefined` is kept);
  - `forEachCell`;
  - `getCell` with its default arguments;
  - `getCellSizeMatrix`: uniform row heights and column widths, each the
    running maximum of padded content sizes;
  - `updateCellsPosition`: columns left to right, and within a column the Y
    categories in reverse;
  - `getTotalHeight` and `getTotalWidth`.

The model is functional. A node's attribute tree is the datatype `Attr`. The
cell table is `map<Attr, map<Attr, Cell>>`. Each mutating loop of the source
becomes a recursive function over the same sequence in the same order:

- the assignment loop is `AssignAll` / `Place`;
- the inner and outer loops of `updateCellsPosition` are `PlaceColumn` and
  `PlaceColumns`;
- the two `max` scans are `RunningMax`.

Each of these functions is paired with an independent reference definition:

- `Members` is the nodes that resolve to a pair, in input order;
- `Sum` of the row heights or column widths gives the offsets;
- `Split`/`Join` are inverses of each other.

Lemmas relate each function to its reference for all inputs.

Modules, one per file: `Wrappers` (`Option`), `Seqs` (`NoDup`, `Sum`,
`FirstIndex` and their lemmas), `Utils` (src/utils.js), `Categories`
(`getCategories`), `GridCells` (the entities, construction, assignment,
`getCell`, `forEachCell`), `GridLayout` (size matrix, positions, totals).

Modelling choices, each following the code:

- A dimension is `Path(path)` or `Extractor(f)`. `f` is a total function
  `Node -> Option<Attr>`. `None` stands for `null`, and `Some(Undef)` for
  `undefined`. The two are kept apart because `getCategories` drops only
  `null` (src/grid.js:50): an extractor's `undefined` becomes a category and
  gets its own column or row of cells. A path walk never yields `undefined`,
  because src/utils.js:11-13 turns it into `null`. A record field that holds
  `undefined` reads the same as a missing one.
- An explicit category list that is present is used as given, even when it is
  empty: `options?.xCategories || …` keeps an empty array, because an array
  is truthy.
- `getCell` falls back to the first category when an argument is missing, is
  the empty string or is `undefined`. These are the falsy values a category
  can take here. A missing X category makes the source index into `undefined`;
  the model gives `TypeError` for that case. A known X with an unknown Y gives
  `Undefined`.
- `getCellSizeMatrix` starts both maxima at `0`. So a row height is
  `max(0, max of padded heights)`, not just the maximum of the padded
  heights. When there are no Y categories, the source creates no entries at
  all, and the model's matrix is empty too.
- After each column, `updateCellsPosition` advances the column offset by the
  width of the last entry it visited, which is the one for `ys[0]`.
  `PlaceColumns` uses exactly that entry. The column width is the same in
  every entry of a column (uniformity), so this equals "the column's width".

Two points about the code that are easy to miss:

- Numeric range binning is not implemented: `getCategories` only collects
  distinct values (src/grid.js:45-56).
- Both maxima of `getCellSizeMatrix` start at `0` (src/grid.js:94 and 109).
  So a row or column whose padded sizes are all negative resolves to `0`, not
  to the largest padded size.

## Model

| member | source | states |
|---|---|---|
| Utils.GetNodeCategory | src/utils.js:1-16 | With an extractor function, the result is exactly that function's answer for the node. With a path, the loop's result is the segment-by-segment walk of the split path from `node.data()`. |
| Utils.Split | src/utils.js:6 | `split('.')` gives one more piece than there are separators in the path. |
| Utils.Walk | src/utils.js:9-15 | A walk over at least one segment never ends on `undefined`: an `undefined` step returns `null` instead. |
| Utils.Resolve | src/utils.js:1-16 | A path dimension never resolves to `undefined`; only an extractor can give `undefined`. |
| Utils.WalkAbsentSegment | src/utils.js:9-13 | If a segment is absent at some step of the walk, the whole result is `null`, whatever segments follow. |
| Utils.WalkStep | src/utils.js:9-14 | Walking one more segment is one more property access on the value reached so far, and absent if the walk so far was absent. |
| Utils.WalkConcat | src/utils.js:9-15 | Walking the segments `a + b` is walking `b` from wherever `a` led, with absence propagating. |
| Utils.ResolvePathConcat | src/utils.js:6-15 | Compositionality: resolving the path `p.q` resolves `q` from the result of resolving `p`, and is `null` when that already was. |
| Utils.SplitConcat | src/utils.js:6 | `split('.')` of `p.q` is the pieces of `p` followed by the pieces of `q`. |
| Utils.JoinSplit | src/utils.js:6 | Joining the pieces of `split('.')` with `.` gives back the path, so splitting loses nothing. |
| Utils.SplitJoin | src/utils.js:6 | Splitting a join of separator-free pieces gives back exactly those pieces. |
| Utils.SplitSeparatorFree | src/utils.js:6 | No piece produced by `split('.')` contains a `.`. |
| Categories.FirstSeen | src/grid.js:46-55 | The `Set` built from the resolved values has no duplicates, and holds exactly the values that occur non-null. |
| Categories.FirstSeenOrder | src/grid.js:48-55 | The categories come out in the order of their first occurrence among the resolved values. |
| Categories.GetCategories | src/grid.js:45-56 | `getCategories` is duplicate-free, never contains `null`, and contains a value exactly when some node resolves to it. This includes an extractor's `undefined`. |
| Categories.UndefinedIsKept | src/grid.js:49-51 | Only `null` is filtered out: if an extractor answers `undefined` for some node, `undefined` is a generated category. |
| Categories.GetCategoriesOrder | src/grid.js:45-56 | For two categories in the result, the earlier one is first resolved by an earlier node. |
| GridCells.EmptyCells | src/grid.js:28-33 | The fresh table has a column for every X category and, in it, a cell for every Y category. Each cell is `new Cell(x, y)` (src/grid.js:3-10): it has its own categories, sits at the origin with zero size, and holds no nodes. |
| GridCells.Place | src/grid.js:36-41 | One step of the node loop never adds or removes a column or a cell. |
| GridCells.PlaceAt | src/grid.js:36-41 | One step appends the node to the cell of `(x, y)` exactly when the node resolves to `x` and `y`, and changes nothing else in that cell. |
| GridCells.MembersContain | src/grid.js:35-42 | A node is among the members of `(x, y)` exactly when it is one of the nodes and resolves to `x` and `y`. |
| GridCells.MembersCount | src/grid.js:35-42 | A node resolving to `(x, y)` is a member as many times as it occurs among the nodes. Any other node is a member zero times. |
| GridCells.AssignAllKeys | src/grid.js:35-42 | The assignment loop neither adds nor removes cells or columns. |
| GridCells.AssignAllAt | src/grid.js:35-42 | The loop extends the node list of cell `(x, y)` by exactly that pair's members, in input order, and leaves every other field of the cell alone. |
| GridCells.AssignAllSpec | src/grid.js:35-42 | The two facts above, for every cell of the table at once. |
| GridCells.AssignedTable | src/grid.js:28-42 | Filling the freshly created table gives a cell exactly for every category pair. Each cell stores its own categories and holds exactly its pair's members. |
| GridCells.NewGrid | src/grid.js:15-43 | The constructor yields a well-formed grid. Explicit category lists are used as given, and missing ones are generated. Every pair's cell is at the origin with zero size and holds exactly the pair's members. |
| GridCells.NodeInCellIff | src/grid.js:35-42 | After construction, a node is in the cell `(x, y)` exactly when it is an input node resolving to `x` and `y`. |
| GridCells.NodeInAtMostOneCell | src/grid.js:35-42 | No node sits in two different cells. |
| GridCells.UnknownCategoryUnassigned | src/grid.js:39-41 | A node with a `null` X or Y category, or one that is not in the category lists, sits in no cell. |
| GridCells.UndefinedCategoryAssigned | src/grid.js:19-41 | With generated categories on both axes, a node whose X extractor answers `undefined` lands in the `undefined` column, in the row of its Y category, and both categories are in the lists. |
| GridCells.AssignedExactlyOnce | src/grid.js:35-42 | A node with two known categories is in its cell exactly as often as it occurs in the input. |
| GridCells.GetCellSpec | src/grid.js:84-88 | Behaviour of `GetCell`, the model of `getCell`. On a well-formed grid it finds a cell exactly when both effective categories are known. It fails with a `TypeError` exactly when the X category is unknown. The cell found is the table's cell for that pair. |
| GridCells.GetCellDefaults | src/grid.js:84-87 | With both arguments omitted, `getCell` returns the table's cell of the first X and first Y category. |
| GridCells.GetCellExplicit | src/grid.js:84-88 | For a known, truthy pair of categories, `getCell` returns that pair's cell. |
| GridCells.GetCellFalsyIsOmitted | src/grid.js:85-86 | An empty-string or `undefined` argument is falsy, so it is treated exactly like an omitted one. |
| GridCells.ForEachCell | src/grid.js:58-64 | `forEachCell` makes as many visits as the number of X categories times the number of Y categories; `ForEachCellOrder` pairs each visit with its cell. |
| GridCells.EntriesAt | src/grid.js:58-64 | The nested iteration visits the cell of `(xs[i], ys[j])` at step `i * n + j`, where `n` is the number of Y categories. |
| GridCells.ForEachCellOrder | src/grid.js:58-64 | On a grid, visit number `i * n + j` of `forEachCell` (`n` Y categories) is the cell of `(xs[i], ys[j])`: columns in X order, and rows in Y order within a column. |
| GridLayout.RunningMax | src/grid.js:94-100 | The `if (max < v) max = v` scan gives an upper bound of its start value and of every value. The bound is equal to one of them. |
| GridLayout.RowHeight | src/grid.js:93-101 | `maxY` of a row is at least 0 and at least every padded content height in the row. It is 0 or one of those heights. |
| GridLayout.ColumnWidth | src/grid.js:108-117 | `maxX` of a column is at least 0 and at least every padded content width in the column. It is 0 or one of those widths. |
| GridLayout.GetCellSizeMatrix | src/grid.js:90-124 | The matrix has an entry for every pair, or none when there are no Y categories. Heights are uniform along each row and widths along each column. Each entry is at least 0 and at least its own cell's padded content size. |
| GridLayout.SizeMatrixTabulates | src/grid.js:90-124 | The entry for `(xs[i], ys[k])` is exactly the width of column `i` and the height of row `k`. |
| GridLayout.PlaceColumn | src/grid.js:133-146 | The inner loop over one column moves and resizes cells, but never adds or removes one. |
| GridLayout.PlaceColumns | src/grid.js:132-151 | The outer loop keeps the table's columns, and the cells within each column. |
| GridLayout.PlaceColumnFrame | src/grid.js:133-146 | The inner loop leaves the cells of rows it does not visit unchanged. |
| GridLayout.PlaceColumnAt | src/grid.js:133-146 | The inner loop, visiting the Y keys in reverse, puts the cell of `rows[k]` at the start offset plus the heights of all rows after `k`. It gives that cell its own size-matrix entry. |
| GridLayout.PlaceColumnsFrame | src/grid.js:132-151 | The outer loop leaves columns it does not visit unchanged. |
| GridLayout.PlaceColumnsColumn | src/grid.js:132-151 | The outer loop runs the inner loop on column `cols[i]` starting at the sum of the widths of the columns before it. |
| GridLayout.PlaceColumnsAt | src/grid.js:132-151 | The cell of `(cols[i], ys[k])` ends up at x = the widths of the columns before `i` and y = the heights of the rows after `k` in its column, with its size-matrix entry as size. |
| GridLayout.PlaceColumnsTabulated | src/grid.js:132-151 | Over a uniform size matrix, the position is (sum of widths `0..i-1`, sum of heights after `k`) and the size is (width `i`, height `k`). |
| GridLayout.TiledBottomRow | src/grid.js:133-137 | Over a uniform size matrix, the position pass puts the last Y category's cell of every column at y = 0. |
| GridLayout.TiledRowsStack | src/grid.js:136-144 | Over a uniform size matrix, within a column, the cell of row `k` starts exactly where the cell of row `k + 1` ends. |
| GridLayout.TiledFirstColumn | src/grid.js:129-136 | Over a uniform size matrix, the first column's cells are at x = 0. |
| GridLayout.TiledColumnsAdjacent | src/grid.js:136-150 | Over a uniform size matrix, column `i + 1` starts exactly where column `i` ends. |
| GridLayout.TiledDisjoint | src/grid.js:126-152 | Over a uniform size matrix with non-negative widths and heights, the rectangles of two different cells share no interior point. |
| GridLayout.TiledTopExtent | src/grid.js:132-146 | Over a uniform size matrix, the first Y category's cell of every column ends at the sum of all row heights. |
| GridLayout.TiledRightExtent | src/grid.js:132-150 | Over a uniform size matrix, the last column's cells end at the sum of all column widths. |
| GridLayout.UpdateCellsPosition | src/grid.js:126-152 | Positioning keeps the grid well formed and keeps its categories, nodes and padding. It stores the size matrix. It changes no cell's categories or node list. |
| GridLayout.PositionAfterUpdate | src/grid.js:126-152 | After positioning, the cell of `(xs[i], ys[k])` is at x = the sum of the widths of columns `0..i-1` and y = the sum of the heights of rows `k+1..`. It has its column's width and its row's height. |
| GridLayout.BottomRowAtOrigin | src/grid.js:133-137 | The last Y category's cell in every column sits at y = 0. |
| GridLayout.RowsStackWithoutGaps | src/grid.js:136-144 | Within a column, each row's cell starts exactly where the next row's cell ends (its y plus its height). |
| GridLayout.FirstColumnAtOrigin | src/grid.js:129-136 | The first X category's cells sit at x = 0. |
| GridLayout.ColumnsSideBySide | src/grid.js:136-150 | Each column starts exactly where the previous one ends (its x plus its width). |
| GridLayout.CellsDoNotOverlap | src/grid.js:126-152 | After positioning, the rectangles of two different cells share no interior point. |
| GridLayout.TotalHeightAfterUpdate | src/grid.js:66-73 | After positioning, `getTotalHeight` is the sum of the row heights. |
| GridLayout.TotalWidthAfterUpdate | src/grid.js:75-82 | After positioning, `getTotalWidth` is the sum of the column widths, or 0 without Y categories. |
| GridLayout.TopRowExtent | src/grid.js:132-146 | In every column, the first Y category's cell ends at the sum of all row heights. |
| GridLayout.TopRowEndsAtTotalHeight | src/grid.js:66-73 | In every column, the first Y category's cell ends exactly at `getTotalHeight`. |
| GridLayout.LastColumnExtent | src/grid.js:132-150 | The last column ends at the sum of all column widths. |
| GridLayout.LastColumnEndsAtTotalWidth | src/grid.js:75-82 | The last column ends exactly at `getTotalWidth`. |

## Left out

- The `console.log` calls of the constructor (src/grid.js:25-26): output only.
- The Cytoscape collection `options.cy.nodes()`: nodes are given as a sequence of `Node` values, each with its `data()` attribute tree.
- `src/layout.js`: host and event plumbing (placeholder positions, Cytoscape events). It is not part of this model.
- `src/class/cell.js`: an unused duplicate of the `Cell` record. It is not part of this model.
- Extractor functions: modelled as total, side-effect-free functions. Arbitrary JavaScript callbacks (exceptions, state) are not modelled.
- JavaScript object keys: the source keys `cells` and the size matrix by the category converted to a string, and `Object.keys` lists integer-like keys first. The model keys by the category value itself and iterates in category-list order. The ways the two can differ are listed below, one per line.
- GridCells.UnknownCategoryUnassigned: does not model the key collision at src/grid.js:39. There a node resolving to `null` is looked up as `cells["null"]`, and is assigned when a string category `"null"` exists. The model keeps `null` apart from every category. The same collision joins `undefined` with a string category `"undefined"`.
- Categories.GetCategories: compares record categories by value. The source's `Set` tells objects apart by reference, so two equal records from different nodes give two categories there, and every object keys its cell as `"[object Object]"`. The model gives each distinct record one category and its own cell.
- Integer-like string categories: `Object.keys` and `Object.entries` visit them first and in numeric order, so `forEachCell`, `updateCellsPosition` and the totals see a different order. The model keeps category-list order.
- Names inherited from `Object.prototype` (`constructor`, `toString`, `__proto__`, …): as path segments they resolve on every record at src/utils.js:10. As cell keys they resolve on `cells` at src/grid.js:39 even when no such category exists. The model sees only a record's own fields and the table's own keys.
- Property access on a leaf string: in JavaScript a string has own properties (`length` and one digit index per character) and inherits the `String.prototype` methods. So the path `"name.0"` gives the first character of `name` and `"name.length"` gives a number, where the model gives `null`. The model treats a leaf as having no properties.
- X categories that name properties of an array (`length`, and the `Array.prototype` names such as `map` or `push`): the size matrix is an array (src/grid.js:91). For the X category `"length"`, `sizeMatrix["length"]` is `0`, which is falsy, so src/grid.js:103 assigns `{}` to the array's length and throws a `RangeError`. For an `Array.prototype` name, lines 103 and 119 find the shared built-in function and write the size entries onto it. The model's size matrix is a plain map, so `GetCellSizeMatrix` and `UpdateCellsPosition` tile such categories like any other.
- Attribute values other than strings, records and `undefined`: numbers, booleans, `null` and arrays. `Attr` has no constructor for them. A path through a `null` field would throw at src/utils.js:10, and a final `null` would be dropped like absence.
- Falsy `getCell` arguments other than the empty string and `undefined` (`0`, `false`, `NaN`, `null`): `Attr` has no such values.
- Missing `xPadding`/`yPadding`: then `2 * padding` is `NaN`, every comparison with `NaN` is false, and every maximum stays `0`. The model takes integer paddings.
- Floating-point sizes and padding: sizes are integers.
- Content sizes of cells are set by an external per-cell layout before the size matrix is computed. The model takes the cells' sizes as given.
- Calling `updateCellsPosition` again overwrites cell sizes with padded sizes, so a later call pads again. The model describes one call on the given sizes.
- GridLayout.UpdateCellsPosition: requires that a grid with X categories also has Y categories. Otherwise the source throws at src/grid.js:150 (it reads `width` of `undefined`).
- GridLayout.GetTotalHeight: requires a computed size matrix and at least one X category. Without them the source throws (`Object.keys` of `undefined`).
- GridLayout.GetTotalWidth: requires a computed size matrix, which the source also needs.
- GridCells.NewGrid: requires explicit category lists to be duplicate-free. With duplicates the source would overwrite cells and its later passes would see fewer keys than categories.
- Numeric range binning: not present in the code.

=== FILE: categories.dfy ===
/** Category generation for one axis (`Grid.getCategories`, src/grid.js):
    the distinct non-null resolved values, in the order they are first seen. */
module Categories {
  import opened Wrappers
  import opened Seqs
  import opened Utils

  /** The resolved category of every node, in node order. */
  function Resolved(nodes: seq<Node>, dim: Dimension): (vals: seq<Option<Attr>>)
    ensures |vals| == |nodes|
    ensures forall i :: 0 <= i < |nodes| ==> vals[i] == Resolve(nodes[i], dim)
  {
    seq(|nodes|, i requires 0 <= i < |nodes| => Resolve(nodes[i], dim))
  }

  /** The insertion-ordered `Set` built from `vals`, skipping `null`s. */
  function FirstSeen(vals: seq<Option<Attr>>): (r: seq<Attr>)
    ensures NoDup(r)
    ensures forall v :: v in r <==> Some(v) in vals
    decreases |vals|
  {
    if |vals| == 0 then []
    else
      var prev := FirstSeen(vals[..|vals| - 1]);
      assert vals == vals[..|vals| - 1] + [vals[|vals| - 1]];
      match vals[|vals| - 1]
      case None => prev
      case Some(v) => if v in prev then prev else prev + [v]
  }

  /** Every element of `r` occurs in `vals`, and `r` lists them in the
      order of their first occurrence there. */
  predicate InFirstSeenOrder(vals: seq<Option<Attr>>, r: seq<Attr>) {
    && (forall k :: 0 <= k < |r| ==> Some(r[k]) in vals)
    && (forall i, j :: 0 <= i < j < |r| ==>
          FirstIndex(vals, Some(r[i])) < FirstIndex(vals, Some(r[j])))
  }

  /** Categories come out in the order of their first occurrence. */
  lemma {:induction false} FirstSeenOrder(vals: seq<Option<Attr>>)
    ensures InFirstSeenOrder(vals, FirstSeen(vals))
    decreases |vals|
  {
    if |vals| > 0 {
      var n := |vals|;
      var pre := vals[..n - 1];
      var prev := FirstSeen(pre);
      var r := FirstSeen(vals);
      FirstSeenOrder(pre);
      assert vals == pre + [vals[n - 1]];
      forall k | 0 <= k < |prev|
        ensures FirstIndex(vals, Some(prev[k])) == FirstIndex(pre, Some(prev[k]))
      {
        FirstIndexPrefix(pre, [vals[n - 1]], Some(prev[k]));
      }
      if r != prev {
        var v := vals[n - 1].value;
        assert r == prev + [v];
        assert Some(v) !in pre;
        assert FirstIndex(vals, Some(v)) == n - 1;
        forall i, j | 0 <= i < j < |r|
          ensures FirstIndex(vals, Some(r[i])) < FirstIndex(vals, Some(r[j]))
        {
          assert r[i] == prev[i];
          if j < |prev| {
            assert r[j] == prev[j];
            assert FirstIndex(pre, Some(prev[i])) < FirstIndex(pre, Some(prev[j]));
            assert FirstIndex(vals, Some(prev[j])) == FirstIndex(pre, Some(prev[j]));
          } else {
            assert FirstIndex(pre, Some(prev[i])) < |pre|;
          }
        }
      }
    }
  }

  /** `getCategories(dimension)`: duplicate-free, made of exactly the non-null
      resolved values of the nodes. */
  function GetCategories(nodes: seq<Node>, dim: Dimension): (cats: seq<Attr>)
    ensures NoDup(cats)
    ensures forall v :: v in cats <==> exists i :: 0 <= i < |nodes| && Resolve(nodes[i], dim) == Some(v)
  {
    var vals := Resolved(nodes, dim);
    assert forall v :: Some(v) in vals <==> exists i :: 0 <= i < |nodes| && Resolve(nodes[i], dim) == Some(v) by {
      forall v ensures Some(v) in vals <==> exists i :: 0 <= i < |nodes| && Resolve(nodes[i], dim) == Some(v) {
        if Some(v) in vals {
          var i :| 0 <= i < |vals| && vals[i] == Some(v);
          assert Resolve(nodes[i], dim) == Some(v);
        }
      }
    }
    FirstSeen(vals)
  }

  /** For two categories in the list, the earlier one resolves from an
      earlier node first. */
  lemma GetCategoriesOrder(nodes: seq<Node>, dim: Dimension)
    ensures InFirstSeenOrder(Resolved(nodes, dim), GetCategories(nodes, dim))
  {
    assert GetCategories(nodes, dim) == FirstSeen(Resolved(nodes, dim));
    FirstSeenOrder(Resolved(nodes, dim));
  }

  /** `getCategories` drops only `null`: an extractor's `undefined` is kept
      as a category of its own. */
  lemma UndefinedIsKept(nodes: seq<Node>, f: Node -> Option<Attr>, i: nat)
    requires i < |nodes| && f(nodes[i]) == Some(Undef)
    ensures Undef in GetCategories(nodes, Extractor(f))
  {
    assert Resolve(nodes[i], Extractor(f)) == Some(Undef);
  }
}

=== FILE: grid_cells.dfy ===
/** The `Grid` entity of src/grid.js up to construction: the `Cell` record,
    one cell per category pair, the assignment of nodes to cells, cell lookup
    and cell enumeration. */
module GridCells {
  import opened Wrappers
  import opened Seqs
  import opened Utils
  import opened Categories

  datatype Point = Point(x: int, y: int)
  datatype Size = Size(width: int, height: int)

  /** A grid cell: its two categories, its placement, its size and the nodes
      assigned to it. */
  datatype Cell = Cell(xCategory: Attr, yCategory: Attr, position: Point, size: Size, nodes: seq<Node>)

  /** `cells[xCat][yCat]`, the nested lookup objects of the source. */
  type Cells = map<Attr, map<Attr, Cell>>

  /** `sizeMatrix[xCat][yCat]`, the resolved size of every cell. */
  type SizeMatrix = map<Attr, map<Attr, Size>>

  /** The constructor's `options`; `cy.nodes()` is given as `nodes`. A
      category list that is present is used as given, even when empty. */
  datatype Options = Options(
    nodes: seq<Node>,
    xDimension: Dimension,
    yDimension: Dimension,
    xCategories: Option<seq<Attr>>,
    yCategories: Option<seq<Attr>>,
    xPadding: int,
    yPadding: int)

  /** The grid; `sizeMatrix` is absent until the cells have been positioned. */
  datatype Grid = Grid(
    xDimension: Dimension,
    yDimension: Dimension,
    nodes: seq<Node>,
    xCategories: seq<Attr>,
    yCategories: seq<Attr>,
    xPadding: int,
    yPadding: int,
    cells: Cells,
    sizeMatrix: Option<SizeMatrix>)

  /** Shape invariant: duplicate-free category lists, a cell exactly for every
      category pair, and each cell knows its own categories. */
  ghost predicate Valid(g: Grid) {
    && NoDup(g.xCategories)
    && NoDup(g.yCategories)
    && (forall x :: x in g.cells <==> x in g.xCategories)
    && (forall x :: x in g.cells ==> forall y :: y in g.cells[x] <==> y in g.yCategories)
    && (forall x :: x in g.cells ==> forall y :: y in g.cells[x] ==>
          g.cells[x][y].xCategory == x && g.cells[x][y].yCategory == y)
  }

  /** `new Cell(xCat, yCat)`: at the origin, of zero size, with no nodes. */
  function NewCell(x: Attr, y: Attr): Cell {
    Cell(x, y, Point(0, 0), Size(0, 0), [])
  }

  /** The cell table built before any node is assigned. */
  function EmptyCells(xs: seq<Attr>, ys: seq<Attr>): (r: Cells)
    ensures forall x :: x in r <==> x in xs
    ensures forall x :: x in r ==> forall y :: y in r[x] <==> y in ys
    ensures forall x, y :: x in r && y in r[x] ==>
              && r[x][y].xCategory == x && r[x][y].yCategory == y
              && r[x][y].position == Point(0, 0) && r[x][y].size == Size(0, 0) && r[x][y].nodes == []
  {
    map x | x in xs :: map y | y in ys :: NewCell(x, y)
  }

  /** Whether `n` resolves to the category pair `(x, y)`. */
  predicate BelongsTo(n: Node, xDim: Dimension, yDim: Dimension, x: Attr, y: Attr) {
    Resolve(n, xDim) == Some(x) && Resolve(n, yDim) == Some(y)
  }

  /** Reference definition: the nodes resolving to `(x, y)`, in input order. */
  function Members(nodes: seq<Node>, xDim: Dimension, yDim: Dimension, x: Attr, y: Attr): seq<Node>
    decreases |nodes|
  {
    if |nodes| == 0 then []
    else
      var n := nodes[|nodes| - 1];
      Members(nodes[..|nodes| - 1], xDim, yDim, x, y) + (if BelongsTo(n, xDim, yDim, x, y) then [n] else [])
  }

  /** A node is a member of `(x, y)` exactly when it is one of the nodes and
      resolves to that pair. */
  lemma {:induction false} MembersContain(nodes: seq<Node>, xDim: Dimension, yDim: Dimension, x: Attr, y: Attr, n: Node)
    ensures n in Members(nodes, xDim, yDim, x, y) <==> n in nodes && BelongsTo(n, xDim, yDim, x, y)
    decreases |nodes|
  {
    if |nodes| > 0 {
      var pre := nodes[..|nodes| - 1];
      MembersContain(pre, xDim, yDim, x, y, n);
      assert nodes == pre + [nodes[|nodes| - 1]];
    }
  }

  /** Each node resolving to `(x, y)` is a member as many times as it occurs
      among the nodes; any other node not at all. */
  lemma {:induction false} MembersCount(nodes: seq<Node>, xDim: Dimension, yDim: Dimension, x: Attr, y: Attr, n: Node)
    ensures multiset(Members(nodes, xDim, yDim, x, y))[n] ==
            if BelongsTo(n, xDim, yDim, x, y) then multiset(nodes)[n] else 0
    decreases |nodes|
  {
    if |nodes| > 0 {
      var pre := nodes[..|nodes| - 1];
      MembersCount(pre, xDim, yDim, x, y, n);
      assert multiset(Members(nodes, xDim, yDim, x, y)) ==
             multiset(Members(pre, xDim, yDim, x, y)) +
             (if BelongsTo(nodes[|nodes| - 1], xDim, yDim, x, y) then multiset{nodes[|nodes| - 1]} else multiset{});
      MultisetDropLast(nodes);
    }
  }

  /** One step of the assignment loop: append `n` to the cell of its resolved
      categories when both are keys of the table; otherwise drop it. */
  function Place(cells: Cells, n: Node, xDim: Dimension, yDim: Dimension): (r: Cells)
    ensures r.Keys == cells.Keys
    ensures forall x :: x in cells ==> r[x].Keys == cells[x].Keys
  {
    var cx := Resolve(n, xDim);
    var cy := Resolve(n, yDim);
    if cx.Some? && cx.value in cells && cy.Some? && cy.value in cells[cx.value] then
      var c := cells[cx.value][cy.value];
      cells[cx.value := cells[cx.value][cy.value := c.(nodes := c.nodes + [n])]]
    else cells
  }

  /** One step appends `n` to the cell of `(x, y)` exactly when `n` resolves
      to that pair, and changes nothing else about the cell. */
  lemma PlaceAt(cells: Cells, n: Node, xDim: Dimension, yDim: Dimension, x: Attr, y: Attr)
    requires x in cells && y in cells[x]
    ensures var r := Place(cells, n, xDim, yDim);
            x in r && y in r[x] &&
            r[x][y] == cells[x][y].(nodes := cells[x][y].nodes + if BelongsTo(n, xDim, yDim, x, y) then [n] else [])
  {
  }

  /** The assignment loop over all nodes, in order. */
  function AssignAll(cells: Cells, nodes: seq<Node>, xDim: Dimension, yDim: Dimension): Cells
    decreases |nodes|
  {
    if |nodes| == 0 then cells
    else Place(AssignAll(cells, nodes[..|nodes| - 1], xDim, yDim), nodes[|nodes| - 1], xDim, yDim)
  }

  /** Assignment keeps the table's keys. */
  lemma {:induction false} AssignAllKeys(cells: Cells, nodes: seq<Node>, xDim: Dimension, yDim: Dimension)
    ensures var r := AssignAll(cells, nodes, xDim, yDim);
            r.Keys == cells.Keys && forall x :: x in cells ==> r[x].Keys == cells[x].Keys
    decreases |nodes|
  {
    if |nodes| > 0 {
      AssignAllKeys(cells, nodes[..|nodes| - 1], xDim, yDim);
    }
  }

  /** Assignment keeps every field of the cell of `(x, y)` except its node
      list, which it extends by exactly the pair's members, in input order. */
  lemma {:induction false} AssignAllAt(cells: Cells, nodes: seq<Node>, xDim: Dimension, yDim: Dimension, x: Attr, y: Attr)
    requires x in cells && y in cells[x]
    ensures var r := AssignAll(cells, nodes, xDim, yDim);
            x in r && y in r[x] &&
            r[x][y] == cells[x][y].(nodes := cells[x][y].nodes + Members(nodes, xDim, yDim, x, y))
    decreases |nodes|
  {
    var c := cells[x][y];
    if |nodes| == 0 {
      assert c.nodes + [] == c.nodes;
    } else {
      var pre := nodes[..|nodes| - 1];
      var n := nodes[|nodes| - 1];
      var before := Members(pre, xDim, yDim, x, y);
      AssignAllAt(cells, pre, xDim, yDim, x, y);
      var r0 := AssignAll(cells, pre, xDim, yDim);
      assert r0[x][y] == c.(nodes := c.nodes + before);
      PlaceAt(r0, n, xDim, yDim, x, y);
      if BelongsTo(n, xDim, yDim, x, y) {
        assert Members(nodes, xDim, yDim, x, y) == before + [n];
        assert c.nodes + before + [n] == c.nodes + (before + [n]);
      } else {
        assert Members(nodes, xDim, yDim, x, y) == before + [];
        assert before + [] == before;
      }
    }
  }

  /** Assignment keeps every key and every cell field except the node list,
      and extends each cell's list by exactly its members, in input order. */
  lemma AssignAllSpec(cells: Cells, nodes: seq<Node>, xDim: Dimension, yDim: Dimension)
    ensures var r := AssignAll(cells, nodes, xDim, yDim);
            && r.Keys == cells.Keys
            && (forall x :: x in cells ==> r[x].Keys == cells[x].Keys)
            && (forall x, y :: x in cells && y in cells[x] ==>
                  r[x][y] == cells[x][y].(nodes := cells[x][y].nodes + Members(nodes, xDim, yDim, x, y)))
  {
    AssignAllKeys(cells, nodes, xDim, yDim);
    forall x, y | x in cells && y in cells[x]
      ensures AssignAll(cells, nodes, xDim, yDim)[x][y] ==
              cells[x][y].(nodes := cells[x][y].nodes + Members(nodes, xDim, yDim, x, y))
    {
      AssignAllAt(cells, nodes, xDim, yDim, x, y);
    }
  }

  /** The category list an axis uses: the one given, else the generated one. */
  function AxisCategories(given: Option<seq<Attr>>, nodes: seq<Node>, dim: Dimension): seq<Attr> {
    match given
    case Some(cs) => cs
    case None => GetCategories(nodes, dim)
  }

  /** Assigning nodes to the empty table keeps its keys. */
  lemma AssignedKeys(xs: seq<Attr>, ys: seq<Attr>, nodes: seq<Node>, xDim: Dimension, yDim: Dimension, cells: Cells)
    requires cells == AssignAll(EmptyCells(xs, ys), nodes, xDim, yDim)
    ensures forall x :: x in cells <==> x in xs
    ensures forall x :: x in cells ==> forall y :: y in cells[x] <==> y in ys
  {
    AssignAllKeys(EmptyCells(xs, ys), nodes, xDim, yDim);
  }

  /** Assigning nodes to the empty table fills the cell of `(x, y)` with
      exactly the pair's members. */
  lemma AssignedCell(xs: seq<Attr>, ys: seq<Attr>, nodes: seq<Node>, xDim: Dimension, yDim: Dimension, cells: Cells,
                     x: Attr, y: Attr)
    requires cells == AssignAll(EmptyCells(xs, ys), nodes, xDim, yDim)
    requires x in xs && y in ys
    ensures x in cells && y in cells[x]
    ensures cells[x][y] == NewCell(x, y).(nodes := Members(nodes, xDim, yDim, x, y))
  {
    var empty := EmptyCells(xs, ys);
    var m := Members(nodes, xDim, yDim, x, y);
    assert x in empty && y in empty[x] && empty[x][y] == NewCell(x, y);
    AssignAllAt(empty, nodes, xDim, yDim, x, y);
    assert [] + m == m;
  }

  /** Assigning nodes to the empty table gives one cell per category pair,
      holding exactly the pair's members. */
  lemma AssignedTable(xs: seq<Attr>, ys: seq<Attr>, nodes: seq<Node>, xDim: Dimension, yDim: Dimension, cells: Cells)
    requires cells == AssignAll(EmptyCells(xs, ys), nodes, xDim, yDim)
    ensures forall x :: x in cells <==> x in xs
    ensures forall x :: x in cells ==> forall y :: y in cells[x] <==> y in ys
    ensures forall x, y :: x in cells && y in cells[x] ==> cells[x][y].xCategory == x && cells[x][y].yCategory == y
    ensures forall x, y :: x in xs && y in ys ==> cells[x][y] == NewCell(x, y).(nodes := Members(nodes, xDim, yDim, x, y))
  {
    AssignedKeys(xs, ys, nodes, xDim, yDim, cells);
    forall x, y | x in xs && y in ys
      ensures cells[x][y] == NewCell(x, y).(nodes := Members(nodes, xDim, yDim, x, y))
    {
      AssignedCell(xs, ys, nodes, xDim, yDim, cells, x, y);
    }
    forall x, y | x in cells && y in cells[x]
      ensures cells[x][y].xCategory == x && cells[x][y].yCategory == y
    {
      AssignedCell(xs, ys, nodes, xDim, yDim, cells, x, y);
    }
  }

  /** The `Grid` constructor: choose the category lists, create one empty cell
      per pair, then assign every node. */
  function NewGrid(opts: Options): (g: Grid)
    requires opts.xCategories.Some? ==> NoDup(opts.xCategories.value)
    requires opts.yCategories.Some? ==> NoDup(opts.yCategories.value)
    ensures Valid(g)
    ensures g.nodes == opts.nodes && g.sizeMatrix.None?
    ensures g.xPadding == opts.xPadding && g.yPadding == opts.yPadding
    ensures opts.xCategories.Some? ==> g.xCategories == opts.xCategories.value
    ensures opts.yCategories.Some? ==> g.yCategories == opts.yCategories.value
    ensures opts.xCategories.None? ==> g.xCategories == GetCategories(opts.nodes, opts.xDimension)
    ensures opts.yCategories.None? ==> g.yCategories == GetCategories(opts.nodes, opts.yDimension)
    ensures forall x, y :: x in g.xCategories && y in g.yCategories ==>
              g.cells[x][y] == NewCell(x, y).(nodes := Members(opts.nodes, opts.xDimension, opts.yDimension, x, y))
  {
    var xs := AxisCategories(opts.xCategories, opts.nodes, opts.xDimension);
    var ys := AxisCategories(opts.yCategories, opts.nodes, opts.yDimension);
    var cells := AssignAll(EmptyCells(xs, ys), opts.nodes, opts.xDimension, opts.yDimension);
    AssignedTable(xs, ys, opts.nodes, opts.xDimension, opts.yDimension, cells);
    Grid(opts.xDimension, opts.yDimension, opts.nodes, xs, ys, opts.xPadding, opts.yPadding, cells, None)
  }

  /** Options whose explicit category lists, if any, are duplicate-free. */
  predicate WellFormed(opts: Options) {
    && (opts.xCategories.Some? ==> NoDup(opts.xCategories.value))
    && (opts.yCategories.Some? ==> NoDup(opts.yCategories.value))
  }

  /** After construction a node sits in the cell `(x, y)` exactly when it is
      one of the nodes and resolves to `x` and `y`. */
  lemma NodeInCellIff(opts: Options, x: Attr, y: Attr, n: Node)
    requires WellFormed(opts)
    ensures var g := NewGrid(opts);
            x in g.xCategories && y in g.yCategories ==>
              (n in g.cells[x][y].nodes <==> n in opts.nodes && BelongsTo(n, opts.xDimension, opts.yDimension, x, y))
  {
    MembersContain(opts.nodes, opts.xDimension, opts.yDimension, x, y, n);
  }

  /** With generated categories, a node whose X extractor answers
      `undefined` lands in the `undefined` column, in the row of its Y
      category. */
  lemma UndefinedCategoryAssigned(opts: Options, n: Node, y: Attr)
    requires opts.xCategories.None? && opts.yCategories.None?
    requires n in opts.nodes && Resolve(n, opts.xDimension) == Some(Undef) && Resolve(n, opts.yDimension) == Some(y)
    ensures Undef in NewGrid(opts).xCategories && y in NewGrid(opts).yCategories
    ensures n in NewGrid(opts).cells[Undef][y].nodes
  {
    var i :| 0 <= i < |opts.nodes| && opts.nodes[i] == n;
    assert Undef in GetCategories(opts.nodes, opts.xDimension);
    assert y in GetCategories(opts.nodes, opts.yDimension);
    NodeInCellIff(opts, Undef, y, n);
  }

  /** No node sits in two different cells. */
  lemma NodeInAtMostOneCell(opts: Options, x: Attr, y: Attr, x': Attr, y': Attr, n: Node)
    requires WellFormed(opts)
    ensures var g := NewGrid(opts);
            x in g.cells && y in g.cells[x] && n in g.cells[x][y].nodes &&
            x' in g.cells && y' in g.cells[x'] && n in g.cells[x'][y'].nodes ==>
              x == x' && y == y'
  {
    MembersContain(opts.nodes, opts.xDimension, opts.yDimension, x, y, n);
    MembersContain(opts.nodes, opts.xDimension, opts.yDimension, x', y', n);
  }

  /** A node whose X or Y category is `null` or not among the grid's
      categories sits in no cell. */
  lemma UnknownCategoryUnassigned(opts: Options, n: Node)
    requires WellFormed(opts)
    ensures var g := NewGrid(opts);
            var cx := Resolve(n, opts.xDimension);
            var cy := Resolve(n, opts.yDimension);
            cx.None? || cx.value !in g.xCategories || cy.None? || cy.value !in g.yCategories ==>
              forall x, y :: x in g.cells && y in g.cells[x] ==> n !in g.cells[x][y].nodes
  {
    var g := NewGrid(opts);
    forall x, y | x in g.cells && y in g.cells[x]
      ensures BelongsTo(n, opts.xDimension, opts.yDimension, x, y) ==> x in g.xCategories && y in g.yCategories
    {
    }
    forall x, y | x in g.cells && y in g.cells[x]
      ensures n in g.cells[x][y].nodes ==> BelongsTo(n, opts.xDimension, opts.yDimension, x, y)
    {
      MembersContain(opts.nodes, opts.xDimension, opts.yDimension, x, y, n);
    }
  }

  /** A node whose categories are both known is in its cell exactly as many
      times as it occurs among the input nodes: the cells partition the
      assignable nodes. */
  lemma AssignedExactlyOnce(opts: Options, n: Node)
    requires WellFormed(opts)
    ensures var g := NewGrid(opts);
            var cx := Resolve(n, opts.xDimension);
            var cy := Resolve(n, opts.yDimension);
            cx.Some? && cx.value in g.xCategories && cy.Some? && cy.value in g.yCategories ==>
              multiset(g.cells[cx.value][cy.value].nodes)[n] == multiset(opts.nodes)[n]
  {
    var cx := Resolve(n, opts.xDimension);
    var cy := Resolve(n, opts.yDimension);
    if cx.Some? && cy.Some? {
      MembersCount(opts.nodes, opts.xDimension, opts.yDimension, cx.value, cy.value, n);
    }
  }

  /** JavaScript truthiness of a category value: the empty string and
      `undefined` are the falsy values an `Attr` can be. */
  predicate Truthy(a: Attr) {
    a != Text("") && a != Undef
  }

  /** The category `getCell` uses for an argument: the argument itself when
      it is truthy, else the first of the axis, or nothing when the axis has
      no categories. */
  function DefaultCategory(given: Option<Attr>, cats: seq<Attr>): Option<Attr> {
    if given.Some? && Truthy(given.value) then given
    else if |cats| > 0 then Some(cats[0])
    else None
  }

  /** Result of `getCell`: a cell; `undefined` when the X category is known
      but the Y category is not; a `TypeError` when the X category is unknown
      (the source then indexes into `undefined`). */
  datatype CellLookup = Found(cell: Cell) | Undefined | TypeError

  /** `getCell(x, y)` with omitted arguments defaulting to the first category. */
  function GetCell(g: Grid, x: Option<Attr>, y: Option<Attr>): CellLookup {
    var cx := DefaultCategory(x, g.xCategories);
    var cy := DefaultCategory(y, g.yCategories);
    if cx.None? || cx.value !in g.cells then TypeError
    else if cy.None? || cy.value !in g.cells[cx.value] then Undefined
    else Found(g.cells[cx.value][cy.value])
  }

  /** On a well-formed grid, lookup finds a cell exactly for a known pair of
      categories, and the cell found is the one of that pair. */
  lemma GetCellSpec(g: Grid, x: Option<Attr>, y: Option<Attr>)
    requires Valid(g)
    ensures var cx := DefaultCategory(x, g.xCategories);
            var cy := DefaultCategory(y, g.yCategories);
            var r := GetCell(g, x, y);
            && (r.Found? <==> cx.Some? && cx.value in g.xCategories && cy.Some? && cy.value in g.yCategories)
            && (r.TypeError? <==> cx.None? || cx.value !in g.xCategories)
            && (r.Found? ==> r.cell == g.cells[cx.value][cy.value])
            && (r.Found? ==> r.cell.xCategory == cx.value && r.cell.yCategory == cy.value)
  {
  }

  /** With both arguments omitted, lookup returns the cell of the first X and
      first Y category. */
  lemma GetCellDefaults(g: Grid)
    requires Valid(g)
    requires |g.xCategories| > 0 && |g.yCategories| > 0
    ensures GetCell(g, None, None) == Found(g.cells[g.xCategories[0]][g.yCategories[0]])
    ensures GetCell(g, None, None).cell.xCategory == g.xCategories[0]
    ensures GetCell(g, None, None).cell.yCategory == g.yCategories[0]
  {
  }

  /** Given a known, truthy pair of categories, lookup returns that pair's
      cell. */
  lemma GetCellExplicit(g: Grid, x: Attr, y: Attr)
    requires Valid(g)
    requires x in g.xCategories && y in g.yCategories && Truthy(x) && Truthy(y)
    ensures GetCell(g, Some(x), Some(y)) == Found(g.cells[x][y])
  {
  }

  /** An empty-string or `undefined` argument is falsy, so lookup treats it
      as omitted. */
  lemma GetCellFalsyIsOmitted(g: Grid, x: Option<Attr>, y: Option<Attr>)
    ensures GetCell(g, Some(Text("")), y) == GetCell(g, None, y)
    ensures GetCell(g, x, Some(Text(""))) == GetCell(g, x, None)
    ensures GetCell(g, Some(Undef), y) == GetCell(g, None, y)
    ensures GetCell(g, x, Some(Undef)) == GetCell(g, x, None)
  {
  }

  /** The cells of one column in Y order, with their keys. */
  function ColumnEntries(cells: Cells, x: Attr, ys: seq<Attr>): (r: seq<(Attr, Attr, Cell)>)
    requires x in cells && forall y :: y in ys ==> y in cells[x]
    ensures |r| == |ys|
    ensures forall j :: 0 <= j < |ys| ==> r[j] == (x, ys[j], cells[x][ys[j]])
  {
    seq(|ys|, j requires 0 <= j < |ys| => (x, ys[j], cells[x][ys[j]]))
  }

  /** The nested iteration of `forEachCell`: columns in X order, and within a
      column the cells in Y order. */
  function Entries(cells: Cells, xs: seq<Attr>, ys: seq<Attr>): (r: seq<(Attr, Attr, Cell)>)
    requires forall x :: x in xs ==> x in cells && forall y :: y in ys ==> y in cells[x]
    ensures |r| == |xs| * |ys|
    decreases |xs|
  {
    if |xs| == 0 then []
    else
      MulStep(|xs|, |ys|);
      ColumnEntries(cells, xs[0], ys) + Entries(cells, xs[1..], ys)
  }

  lemma MulStep(i: int, n: int)
    ensures i * n == (i - 1) * n + n
  {
  }

  /** The cell of `(xs[i], ys[j])` is visited at step `k = i * |ys| + j`. */
  lemma {:induction false} EntriesAt(cells: Cells, xs: seq<Attr>, ys: seq<Attr>, i: nat, j: nat, k: nat)
    requires forall x :: x in xs ==> x in cells && forall y :: y in ys ==> y in cells[x]
    requires i < |xs| && j < |ys| && k == i * |ys| + j
    ensures k < |Entries(cells, xs, ys)|
    ensures Entries(cells, xs, ys)[k] == (xs[i], ys[j], cells[xs[i]][ys[j]])
    decreases i
  {
    var head := ColumnEntries(cells, xs[0], ys);
    var tail := Entries(cells, xs[1..], ys);
    MulStep(|xs|, |ys|);
    assert Entries(cells, xs, ys) == head + tail;
    if i > 0 {
      MulStep(i, |ys|);
      EntriesAt(cells, xs[1..], ys, i - 1, j, k - |ys|);
      assert xs[1..][i - 1] == xs[i];
    } else {
      assert k == j;
    }
  }

  /** `forEachCell`: every (xCat, yCat, cell) triple of the table. */
  function ForEachCell(g: Grid): (r: seq<(Attr, Attr, Cell)>)
    requires Valid(g)
    ensures |r| == |g.xCategories| * |g.yCategories|
  {
    Entries(g.cells, g.xCategories, g.yCategories)
  }

  /** `forEachCell` visits the cell of `(xs[i], ys[j])` at step
      `k = i * |ys| + j`, so every cell exactly once, columns in X order and
      rows in Y order. */
  lemma ForEachCellOrder(g: Grid, i: nat, j: nat, k: nat)
    requires Valid(g)
    requires i < |g.xCategories| && j < |g.yCategories| && k == i * |g.yCategories| + j
    ensures k < |ForEachCell(g)|
    ensures ForEachCell(g)[k] == (g.xCategories[i], g.yCategories[j], g.cells[g.xCategories[i]][g.yCategories[j]])
  {
    EntriesAt(g.cells, g.xCategories, g.yCategories, i, j, k);
  }
}

=== FILE: grid_layout.dfy ===
/** Sizing and placement of the grid's cells (src/grid.js): the size matrix
    with uniform row heights and column widths, the position pass that tiles
    the cells, and the total width and height. */
module GridLayout {
  import opened Wrappers
  import opened Seqs
  import opened Utils
  import opened GridCells

  /** Every `(x, y)` pair of the lists has a cell. */
  predicate Covers(cells: Cells, xs: seq<Attr>, ys: seq<Attr>) {
    forall x <- xs :: x in cells && forall y <- ys :: y in cells[x]
  }

  /** Every `(x, y)` pair of the lists has a size-matrix entry. */
  predicate SizedFor(sm: SizeMatrix, xs: seq<Attr>, ys: seq<Attr>) {
    forall x <- xs :: x in sm && forall y <- ys :: y in sm[x]
  }

  lemma ValidCovers(g: Grid)
    requires Valid(g)
    ensures Covers(g.cells, g.xCategories, g.yCategories)
  {
  }

  /** The `if (max < v) max = v` scan over `vals`, starting from `acc`: an
      upper bound of `acc` and of every value, equal to one of them. */
  function RunningMax(acc: int, vals: seq<int>): (r: int)
    ensures r >= acc
    ensures forall k :: 0 <= k < |vals| ==> r >= vals[k]
    ensures r == acc || exists k :: 0 <= k < |vals| && r == vals[k]
    decreases |vals|
  {
    if |vals| == 0 then acc
    else
      var acc' := if acc < vals[0] then vals[0] else acc;
      var r := RunningMax(acc', vals[1..]);
      assert r != acc' ==> exists k :: 0 <= k < |vals| && r == vals[k] by {
        if r != acc' {
          var k :| 0 <= k < |vals[1..]| && r == vals[1..][k];
          assert r == vals[k + 1];
        }
      }
      r
  }

  /** Content heights of row `y` across the columns, padded on both sides. */
  function RowTerms(cells: Cells, xs: seq<Attr>, y: Attr, yPadding: int): (t: seq<int>)
    requires forall x <- xs :: x in cells && y in cells[x]
    ensures |t| == |xs|
    ensures forall i :: 0 <= i < |xs| ==> t[i] == cells[xs[i]][y].size.height + 2 * yPadding
  {
    seq(|xs|, i requires 0 <= i < |xs| => cells[xs[i]][y].size.height + 2 * yPadding)
  }

  /** Content widths of column `x` across the rows, padded on both sides. */
  function ColumnTerms(cells: Cells, x: Attr, ys: seq<Attr>, xPadding: int): (t: seq<int>)
    requires x in cells && forall y <- ys :: y in cells[x]
    ensures |t| == |ys|
    ensures forall j :: 0 <= j < |ys| ==> t[j] == cells[x][ys[j]].size.width + 2 * xPadding
  {
    seq(|ys|, j requires 0 <= j < |ys| => cells[x][ys[j]].size.width + 2 * xPadding)
  }

  /** `maxY` of the source for row `y`: at least 0 and at least every
      padded content height of the row, and equal to 0 or to one of them. */
  function RowHeight(cells: Cells, xs: seq<Attr>, y: Attr, yPadding: int): (h: int)
    requires forall x <- xs :: x in cells && y in cells[x]
    ensures h >= 0
    ensures forall x <- xs :: h >= cells[x][y].size.height + 2 * yPadding
    ensures h == 0 || exists x <- xs :: h == cells[x][y].size.height + 2 * yPadding
  {
    var t := RowTerms(cells, xs, y, yPadding);
    var h := RunningMax(0, t);
    assert forall x <- xs :: h >= cells[x][y].size.height + 2 * yPadding by {
      forall x <- xs ensures h >= cells[x][y].size.height + 2 * yPadding {
        var i :| 0 <= i < |xs| && xs[i] == x;
        assert t[i] == cells[x][y].size.height + 2 * yPadding;
      }
    }
    assert h != 0 ==> exists x <- xs :: h == cells[x][y].size.height + 2 * yPadding by {
      if h != 0 {
        var i :| 0 <= i < |t| && h == t[i];
        assert xs[i] in xs;
      }
    }
    h
  }

  /** `maxX` of the source for column `x`: at least 0 and at least every
      padded content width of the column, and equal to 0 or to one of them. */
  function ColumnWidth(cells: Cells, x: Attr, ys: seq<Attr>, xPadding: int): (w: int)
    requires x in cells && forall y <- ys :: y in cells[x]
    ensures w >= 0
    ensures forall y <- ys :: w >= cells[x][y].size.width + 2 * xPadding
    ensures w == 0 || exists y <- ys :: w == cells[x][y].size.width + 2 * xPadding
  {
    var t := ColumnTerms(cells, x, ys, xPadding);
    var w := RunningMax(0, t);
    assert forall y <- ys :: w >= cells[x][y].size.width + 2 * xPadding by {
      forall y <- ys ensures w >= cells[x][y].size.width + 2 * xPadding {
        var j :| 0 <= j < |ys| && ys[j] == y;
        assert t[j] == cells[x][y].size.width + 2 * xPadding;
      }
    }
    assert w != 0 ==> exists y <- ys :: w == cells[x][y].size.width + 2 * xPadding by {
      if w != 0 {
        var j :| 0 <= j < |t| && w == t[j];
        assert ys[j] in ys;
      }
    }
    w
  }

  /** `getCellSizeMatrix`: an entry for every category pair (none at all
      when there are no Y categories, as the source only creates entries
      inside its loop over them); all entries of a row share one height and
      all entries of a column share one width; each entry is at least 0 and
      at least the padded content size of its own cell. */
  function GetCellSizeMatrix(g: Grid): (sm: SizeMatrix)
    requires Covers(g.cells, g.xCategories, g.yCategories)
    ensures |g.yCategories| == 0 ==> sm == map[]
    ensures |g.yCategories| > 0 ==> forall x :: x in sm <==> x in g.xCategories
    ensures forall x :: x in sm ==> forall y :: y in sm[x] <==> y in g.yCategories
    ensures forall x, y :: x in sm && y in sm[x] ==>
              sm[x][y].height == RowHeight(g.cells, g.xCategories, y, g.yPadding) &&
              sm[x][y].width == ColumnWidth(g.cells, x, g.yCategories, g.xPadding)
    ensures forall x, x', y :: x in sm && x' in sm && y in sm[x] ==>
              y in sm[x'] && sm[x][y].height == sm[x'][y].height
    ensures forall x, y, y' :: x in sm && y in sm[x] && y' in sm[x] ==>
              sm[x][y].width == sm[x][y'].width
    ensures forall x, y :: x in sm && y in sm[x] ==>
              && sm[x][y].height >= 0 && sm[x][y].width >= 0
              && sm[x][y].height >= g.cells[x][y].size.height + 2 * g.yPadding
              && sm[x][y].width >= g.cells[x][y].size.width + 2 * g.xPadding
  {
    var xs, ys := g.xCategories, g.yCategories;
    map x | x in xs && |ys| > 0 ::
      map y | y in ys :: Size(ColumnWidth(g.cells, x, ys, g.xPadding), RowHeight(g.cells, xs, y, g.yPadding))
  }

  /** Heights of the entries `rows` of one size-matrix column, in order. */
  function HeightsOf(sizes: map<Attr, Size>, rows: seq<Attr>): (t: seq<int>)
    requires forall y <- rows :: y in sizes
    ensures |t| == |rows|
    ensures forall k :: 0 <= k < |rows| ==> t[k] == sizes[rows[k]].height
  {
    seq(|rows|, k requires 0 <= k < |rows| => sizes[rows[k]].height)
  }

  /** Widths of the entries in row `y` of the columns `cols`, in order. */
  function WidthsAt(sm: SizeMatrix, cols: seq<Attr>, y: Attr): (t: seq<int>)
    requires forall x <- cols :: x in sm && y in sm[x]
    ensures |t| == |cols|
    ensures forall i :: 0 <= i < |cols| ==> t[i] == sm[cols[i]][y].width
    decreases |cols|
  {
    if |cols| == 0 then [] else [sm[cols[0]][y].width] + WidthsAt(sm, cols[1..], y)
  }

  /** Two cells with the same categories and the same nodes. */
  predicate SameContent(a: Cell, b: Cell) {
    a.xCategory == b.xCategory && a.yCategory == b.yCategory && a.nodes == b.nodes
  }

  /** The inner loop of `updateCellsPosition` for one column: the Y keys are
      visited in reverse, each cell is put at `colX` and at the previous
      cell's `y` plus its height, and takes its size-matrix entry. */
  function PlaceColumn(col: map<Attr, Cell>, sizes: map<Attr, Size>, colX: int,
                       rows: seq<Attr>, prevY: int, prevH: int): (r: map<Attr, Cell>)
    requires forall y <- rows :: y in col && y in sizes
    ensures r.Keys == col.Keys
    decreases |rows|
  {
    if |rows| == 0 then col
    else
      var y := rows[|rows| - 1];
      var placed := col[y].(position := Point(colX, prevY + prevH), size := sizes[y]);
      PlaceColumn(col[y := placed], sizes, colX, rows[..|rows| - 1], placed.position.y, placed.size.height)
  }

  /** One step of the column pass: the last row's cell is placed on top of
      the previous one and the pass goes on with the rows before it. */
  lemma PlaceColumnUnfold(col: map<Attr, Cell>, sizes: map<Attr, Size>, colX: int, rows: seq<Attr>, prevY: int, prevH: int,
                          last: Attr, top: int, placed: Cell)
    requires forall y <- rows :: y in col && y in sizes
    requires 0 < |rows| && last == rows[|rows| - 1] && top == prevY + prevH
    requires placed == col[last].(position := Point(colX, top), size := sizes[last])
    ensures PlaceColumn(col, sizes, colX, rows, prevY, prevH) ==
            PlaceColumn(col[last := placed], sizes, colX, rows[..|rows| - 1], top, placed.size.height)
  {
  }

  /** The column pass leaves the cell of a row it does not visit alone. */
  lemma {:induction false} PlaceColumnFrame(col: map<Attr, Cell>, sizes: map<Attr, Size>, colX: int,
                                            rows: seq<Attr>, prevY: int, prevH: int, y: Attr)
    requires forall y <- rows :: y in col && y in sizes
    requires y in col && y !in rows
    ensures PlaceColumn(col, sizes, colX, rows, prevY, prevH)[y] == col[y]
    decreases |rows|
  {
    if |rows| > 0 {
      var last := rows[|rows| - 1];
      var pre := rows[..|rows| - 1];
      var top := prevY + prevH;
      var placed := col[last].(position := Point(colX, top), size := sizes[last]);
      var h := placed.size.height;
      PlaceColumnUnfold(col, sizes, colX, rows, prevY, prevH, last, top, placed);
      assert y != last && y !in pre;
      PlaceColumnFrame(col[last := placed], sizes, colX, pre, top, h, y);
    }
  }

  /** The heights after row `k` are those after it among all rows but the
      last, followed by the last row's height. */
  lemma HeightsAfterStep(sizes: map<Attr, Size>, rows: seq<Attr>, pre: seq<Attr>, k: nat)
    requires forall y <- rows :: y in sizes
    requires k + 1 < |rows| && pre == rows[..|rows| - 1]
    ensures Sum(HeightsOf(sizes, rows[k + 1..])) == Sum(HeightsOf(sizes, pre[k + 1..])) + sizes[rows[|rows| - 1]].height
  {
    var after := HeightsOf(sizes, pre[k + 1..]);
    var h := sizes[rows[|rows| - 1]].height;
    assert HeightsOf(sizes, rows[k + 1..]) == after + [h];
    SumSnoc(after, h);
  }

  /** The column pass puts the cell of `rows[k]` at `y` = the start offset
      plus the heights of all rows after it, and gives it its size-matrix
      entry. */
  lemma {:induction false} PlaceColumnAt(col: map<Attr, Cell>, sizes: map<Attr, Size>, colX: int,
                                         rows: seq<Attr>, prevY: int, prevH: int, k: nat, y: int)
    requires forall y <- rows :: y in col && y in sizes
    requires NoDup(rows) && k < |rows|
    requires y == prevY + prevH + Sum(HeightsOf(sizes, rows[k + 1..]))
    ensures PlaceColumn(col, sizes, colX, rows, prevY, prevH)[rows[k]] ==
            col[rows[k]].(position := Point(colX, y), size := sizes[rows[k]])
    decreases |rows|
  {
    var last := rows[|rows| - 1];
    var pre := rows[..|rows| - 1];
    var top := prevY + prevH;
    var placed := col[last].(position := Point(colX, top), size := sizes[last]);
    var h := placed.size.height;
    PlaceColumnUnfold(col, sizes, colX, rows, prevY, prevH, last, top, placed);
    assert last !in pre;
    if k == |rows| - 1 {
      PlaceColumnFrame(col[last := placed], sizes, colX, pre, top, h, last);
      assert HeightsOf(sizes, rows[k + 1..]) == [];
      assert y == top;
    } else {
      assert NoDup(pre);
      HeightsAfterStep(sizes, rows, pre, k);
      PlaceColumnAt(col[last := placed], sizes, colX, pre, top, h, k, y);
      assert rows[k] == pre[k] && rows[k] != last;
    }
  }

  /** The outer loop of `updateCellsPosition`: columns left to right, each
      at the sum of the widths before it; the width added after a column is
      that of the entry the inner loop visited last, its first Y key. */
  function PlaceColumns(cells: Cells, sm: SizeMatrix, cols: seq<Attr>, ys: seq<Attr>, prevW: int): (r: Cells)
    requires |cols| == 0 || |ys| > 0
    requires Covers(cells, cols, ys) && SizedFor(sm, cols, ys)
    ensures r.Keys == cells.Keys
    ensures forall x :: x in cells ==> r[x].Keys == cells[x].Keys
    decreases |cols|
  {
    if |cols| == 0 then cells
    else
      var x := cols[0];
      var column := PlaceColumn(cells[x], sm[x], prevW, ys, 0, 0);
      PlaceColumns(cells[x := column], sm, cols[1..], ys, prevW + sm[x][ys[0]].width)
  }

  /** The outer pass leaves a column it does not visit alone. */
  lemma {:induction false} PlaceColumnsFrame(cells: Cells, sm: SizeMatrix, cols: seq<Attr>, ys: seq<Attr>, prevW: int,
                                             x: Attr)
    requires |cols| == 0 || |ys| > 0
    requires Covers(cells, cols, ys) && SizedFor(sm, cols, ys)
    requires x in cells && x !in cols
    ensures PlaceColumns(cells, sm, cols, ys, prevW)[x] == cells[x]
    decreases |cols|
  {
    if |cols| > 0 {
      var c := cols[0];
      var column := PlaceColumn(cells[c], sm[c], prevW, ys, 0, 0);
      var w := prevW + sm[c][ys[0]].width;
      CoversStep(cells, cols, ys, column);
      SizedForStep(sm, cols, ys);
      PlaceColumnsUnfold(cells, sm, cols, ys, prevW, c, column, w);
      assert x != c && x !in cols[1..];
      PlaceColumnsFrame(cells[c := column], sm, cols[1..], ys, w, x);
    }
  }

  /** The widths before column `i` are the first column's width plus the
      widths between the second column and column `i`. */
  lemma WidthsPrefixStep(sm: SizeMatrix, cols: seq<Attr>, y: Attr, i: nat)
    requires forall x <- cols :: x in sm && y in sm[x]
    requires 0 < i <= |cols|
    ensures Sum(WidthsAt(sm, cols[..i], y)) == sm[cols[0]][y].width + Sum(WidthsAt(sm, cols[1..][..i - 1], y))
  {
    assert cols[..i][0] == cols[0] && cols[..i][1..] == cols[1..][..i - 1];
  }

  /** Replacing the first column by a column with the same keys keeps
      coverage of the remaining columns. */
  lemma CoversStep(cells: Cells, cols: seq<Attr>, ys: seq<Attr>, column: map<Attr, Cell>)
    requires 0 < |cols| && Covers(cells, cols, ys) && column.Keys == cells[cols[0]].Keys
    ensures Covers(cells[cols[0] := column], cols[1..], ys)
  {
    forall x <- cols[1..] ensures x in cells && forall y <- ys :: y in cells[cols[0] := column][x] {
      assert x in cols;
    }
  }

  /** Dropping the first column keeps the size-matrix entries of the rest. */
  lemma SizedForStep(sm: SizeMatrix, cols: seq<Attr>, ys: seq<Attr>)
    requires 0 < |cols| && SizedFor(sm, cols, ys)
    ensures SizedFor(sm, cols[1..], ys)
  {
    forall x <- cols[1..] ensures x in sm && forall y <- ys :: y in sm[x] {
      assert x in cols;
    }
  }

  /** One step of the outer pass: the first column is placed at the start
      offset and the rest follow one width further on. */
  lemma PlaceColumnsUnfold(cells: Cells, sm: SizeMatrix, cols: seq<Attr>, ys: seq<Attr>, prevW: int,
                           x: Attr, column: map<Attr, Cell>, w: int)
    requires 0 < |cols| && 0 < |ys|
    requires Covers(cells, cols, ys) && SizedFor(sm, cols, ys)
    requires x == cols[0] && column == PlaceColumn(cells[x], sm[x], prevW, ys, 0, 0) && w == prevW + sm[x][ys[0]].width
    requires Covers(cells[x := column], cols[1..], ys) && SizedFor(sm, cols[1..], ys)
    ensures PlaceColumns(cells, sm, cols, ys, prevW) == PlaceColumns(cells[x := column], sm, cols[1..], ys, w)
  {
  }

  /** The outer pass gives the first column the column pass at the start
      offset. */
  lemma PlaceColumnsFirst(cells: Cells, sm: SizeMatrix, cols: seq<Attr>, ys: seq<Attr>, prevW: int)
    requires NoDup(cols) && 0 < |cols| && 0 < |ys|
    requires Covers(cells, cols, ys) && SizedFor(sm, cols, ys)
    ensures PlaceColumns(cells, sm, cols, ys, prevW)[cols[0]] == PlaceColumn(cells[cols[0]], sm[cols[0]], prevW, ys, 0, 0)
  {
    var x := cols[0];
    var column := PlaceColumn(cells[x], sm[x], prevW, ys, 0, 0);
    var w := prevW + sm[x][ys[0]].width;
    CoversStep(cells, cols, ys, column);
    SizedForStep(sm, cols, ys);
    PlaceColumnsUnfold(cells, sm, cols, ys, prevW, x, column, w);
    assert x !in cols[1..];
    PlaceColumnsFrame(cells[x := column], sm, cols[1..], ys, w, x);
  }

  /** The outer pass gives column `cols[i]` the column pass started at
      `x` = the start offset plus the widths of the columns before it. */
  lemma {:induction false} PlaceColumnsColumn(cells: Cells, sm: SizeMatrix, cols: seq<Attr>, ys: seq<Attr>, prevW: int,
                                              i: nat, x: int)
    requires NoDup(cols) && 0 < |ys|
    requires Covers(cells, cols, ys) && SizedFor(sm, cols, ys)
    requires i < |cols|
    requires x == prevW + Sum(WidthsAt(sm, cols[..i], ys[0]))
    ensures PlaceColumns(cells, sm, cols, ys, prevW)[cols[i]] == PlaceColumn(cells[cols[i]], sm[cols[i]], x, ys, 0, 0)
    decreases i
  {
    if i == 0 {
      PlaceColumnsFirst(cells, sm, cols, ys, prevW);
      assert cols[..0] == [];
      assert x == prevW;
    } else {
      var c := cols[0];
      var column := PlaceColumn(cells[c], sm[c], prevW, ys, 0, 0);
      var w := prevW + sm[c][ys[0]].width;
      CoversStep(cells, cols, ys, column);
      SizedForStep(sm, cols, ys);
      PlaceColumnsUnfold(cells, sm, cols, ys, prevW, c, column, w);
      assert NoDup(cols[1..]);
      WidthsPrefixStep(sm, cols, ys[0], i);
      PlaceColumnsColumn(cells[c := column], sm, cols[1..], ys, w, i - 1, x);
      assert cols[1..][i - 1] == cols[i] && cols[i] != c;
    }
  }

  /** The column pass puts the cell of `(cols[i], ys[k])` at `x` = start
      plus the widths of the columns before it and `y` = the heights of the
      rows after it in its column, with its size-matrix entry as size. */
  lemma PlaceColumnsAt(cells: Cells, sm: SizeMatrix, cols: seq<Attr>, ys: seq<Attr>, prevW: int, i: nat, k: nat)
    requires NoDup(cols) && NoDup(ys)
    requires Covers(cells, cols, ys) && SizedFor(sm, cols, ys)
    requires i < |cols| && k < |ys|
    ensures var r := PlaceColumns(cells, sm, cols, ys, prevW);
            r[cols[i]][ys[k]] ==
            cells[cols[i]][ys[k]].(position := Point(prevW + Sum(WidthsAt(sm, cols[..i], ys[0])),
                                                     Sum(HeightsOf(sm[cols[i]], ys[k + 1..]))),
                                   size := sm[cols[i]][ys[k]])
  {
    var x := prevW + Sum(WidthsAt(sm, cols[..i], ys[0]));
    var y := Sum(HeightsOf(sm[cols[i]], ys[k + 1..]));
    PlaceColumnsColumn(cells, sm, cols, ys, prevW, i, x);
    PlaceColumnAt(cells[cols[i]], sm[cols[i]], x, ys, 0, 0, k, y);
  }

  /** Resolved width of every column, in X order. */
  function ColumnWidths(g: Grid): (ws: seq<int>)
    requires Covers(g.cells, g.xCategories, g.yCategories)
    ensures |ws| == |g.xCategories|
    ensures forall i :: 0 <= i < |ws| ==> ws[i] == ColumnWidth(g.cells, g.xCategories[i], g.yCategories, g.xPadding)
    ensures forall i :: 0 <= i < |ws| ==> ws[i] >= 0
  {
    seq(|g.xCategories|, i requires 0 <= i < |g.xCategories| =>
      ColumnWidth(g.cells, g.xCategories[i], g.yCategories, g.xPadding))
  }

  /** Resolved height of every row, in Y order. */
  function RowHeights(g: Grid): (hs: seq<int>)
    requires Covers(g.cells, g.xCategories, g.yCategories)
    ensures |hs| == |g.yCategories|
    ensures forall k :: 0 <= k < |hs| ==> hs[k] == RowHeight(g.cells, g.xCategories, g.yCategories[k], g.yPadding)
    ensures forall k :: 0 <= k < |hs| ==> hs[k] >= 0
  {
    seq(|g.yCategories|, k requires 0 <= k < |g.yCategories| =>
      RowHeight(g.cells, g.xCategories, g.yCategories[k], g.yPadding))
  }

  /** The entry of `sm` for `(cols[i], ys[k])` is `Size(ws[i], hs[k])`. */
  predicate Tabulates(sm: SizeMatrix, cols: seq<Attr>, ys: seq<Attr>, ws: seq<int>, hs: seq<int>) {
    && |ws| == |cols| && |hs| == |ys|
    && SizedFor(sm, cols, ys)
    && forall i, k :: 0 <= i < |cols| && 0 <= k < |ys| ==> sm[cols[i]][ys[k]] == Size(ws[i], hs[k])
  }

  /** Over a size matrix with column widths `ws` and row heights `hs`, the
      position pass puts the cell of `(cols[i], ys[k])` at the widths before
      column `i` and the heights after row `k`. */
  lemma PlaceColumnsTabulated(cells: Cells, sm: SizeMatrix, cols: seq<Attr>, ys: seq<Attr>,
                              ws: seq<int>, hs: seq<int>, i: nat, k: nat)
    requires NoDup(cols) && NoDup(ys)
    requires Covers(cells, cols, ys) && Tabulates(sm, cols, ys, ws, hs)
    requires i < |cols| && k < |ys|
    ensures PlaceColumns(cells, sm, cols, ys, 0)[cols[i]][ys[k]] ==
            cells[cols[i]][ys[k]].(position := Point(Sum(ws[..i]), Sum(hs[k + 1..])), size := Size(ws[i], hs[k]))
  {
    PlaceColumnsAt(cells, sm, cols, ys, 0, i, k);
    var before := WidthsAt(sm, cols[..i], ys[0]);
    forall m | 0 <= m < i ensures before[m] == ws[m] {
      assert cols[..i][m] == cols[m];
      assert sm[cols[m]][ys[0]] == Size(ws[m], hs[0]);
    }
    assert before == ws[..i];
    var after := HeightsOf(sm[cols[i]], ys[k + 1..]);
    forall m | 0 <= m < |after| ensures after[m] == hs[k + 1 + m] {
      assert ys[k + 1..][m] == ys[k + 1 + m];
      assert sm[cols[i]][ys[k + 1 + m]] == Size(ws[i], hs[k + 1 + m]);
    }
    assert after == hs[k + 1..];
  }

  /** Two cells whose rectangles (position plus size) share no interior
      point. */
  predicate Disjoint(a: Cell, b: Cell) {
    || a.position.x + a.size.width <= b.position.x
    || b.position.x + b.size.width <= a.position.x
    || a.position.y + a.size.height <= b.position.y
    || b.position.y + b.size.height <= a.position.y
  }

  /** Over a tabulated size matrix, the last row of every column sits at
      `y = 0`. */
  lemma TiledBottomRow(cells: Cells, sm: SizeMatrix, cols: seq<Attr>, ys: seq<Attr>,
                       ws: seq<int>, hs: seq<int>, i: nat)
    requires NoDup(cols) && NoDup(ys)
    requires Covers(cells, cols, ys) && Tabulates(sm, cols, ys, ws, hs)
    requires i < |cols| && 0 < |ys|
    ensures PlaceColumns(cells, sm, cols, ys, 0)[cols[i]][ys[|ys| - 1]].position.y == 0
  {
    var k := |ys| - 1;
    PlaceColumnsTabulated(cells, sm, cols, ys, ws, hs, i, k);
    assert hs[k + 1..] == [];
  }

  /** Over a tabulated size matrix, row `k` of a column starts exactly where
      row `k + 1` ends. */
  lemma TiledRowsStack(cells: Cells, sm: SizeMatrix, cols: seq<Attr>, ys: seq<Attr>,
                       ws: seq<int>, hs: seq<int>, i: nat, k: nat)
    requires NoDup(cols) && NoDup(ys)
    requires Covers(cells, cols, ys) && Tabulates(sm, cols, ys, ws, hs)
    requires i < |cols| && k + 1 < |ys|
    ensures var r := PlaceColumns(cells, sm, cols, ys, 0);
            r[cols[i]][ys[k]].position.y == r[cols[i]][ys[k + 1]].position.y + r[cols[i]][ys[k + 1]].size.height
  {
    PlaceColumnsTabulated(cells, sm, cols, ys, ws, hs, i, k);
    PlaceColumnsTabulated(cells, sm, cols, ys, ws, hs, i, k + 1);
    SumSuffixStep(hs, k + 1);
  }

  /** Over a tabulated size matrix, the first column sits at `x = 0`. */
  lemma TiledFirstColumn(cells: Cells, sm: SizeMatrix, cols: seq<Attr>, ys: seq<Attr>,
                         ws: seq<int>, hs: seq<int>, k: nat)
    requires NoDup(cols) && NoDup(ys)
    requires Covers(cells, cols, ys) && Tabulates(sm, cols, ys, ws, hs)
    requires 0 < |cols| && k < |ys|
    ensures PlaceColumns(cells, sm, cols, ys, 0)[cols[0]][ys[k]].position.x == 0
  {
    PlaceColumnsTabulated(cells, sm, cols, ys, ws, hs, 0, k);
    assert ws[..0] == [];
  }

  /** Over a tabulated size matrix, column `i + 1` starts exactly where
      column `i` ends. */
  lemma TiledColumnsAdjacent(cells: Cells, sm: SizeMatrix, cols: seq<Attr>, ys: seq<Attr>,
                             ws: seq<int>, hs: seq<int>, i: nat, k: nat)
    requires NoDup(cols) && NoDup(ys)
    requires Covers(cells, cols, ys) && Tabulates(sm, cols, ys, ws, hs)
    requires i + 1 < |cols| && k < |ys|
    ensures var r := PlaceColumns(cells, sm, cols, ys, 0);
            r[cols[i + 1]][ys[k]].position.x == r[cols[i]][ys[k]].position.x + r[cols[i]][ys[k]].size.width
  {
    PlaceColumnsTabulated(cells, sm, cols, ys, ws, hs, i, k);
    PlaceColumnsTabulated(cells, sm, cols, ys, ws, hs, i + 1, k);
    SumPrefixStep(ws, i);
  }

  /** Over a tabulated size matrix with non-negative widths and heights,
      the rectangles of two different cells do not overlap. */
  lemma TiledDisjoint(cells: Cells, sm: SizeMatrix, cols: seq<Attr>, ys: seq<Attr>,
                      ws: seq<int>, hs: seq<int>, i: nat, k: nat, i': nat, k': nat)
    requires NoDup(cols) && NoDup(ys)
    requires Covers(cells, cols, ys) && Tabulates(sm, cols, ys, ws, hs)
    requires forall m :: 0 <= m < |ws| ==> ws[m] >= 0
    requires forall m :: 0 <= m < |hs| ==> hs[m] >= 0
    requires i < |cols| && k < |ys| && i' < |cols| && k' < |ys|
    requires i != i' || k != k'
    ensures var r := PlaceColumns(cells, sm, cols, ys, 0);
            Disjoint(r[cols[i]][ys[k]], r[cols[i']][ys[k']])
  {
    PlaceColumnsTabulated(cells, sm, cols, ys, ws, hs, i, k);
    PlaceColumnsTabulated(cells, sm, cols, ys, ws, hs, i', k');
    if i < i' {
      PrefixSeparated(ws, i, i');
    } else if i' < i {
      PrefixSeparated(ws, i', i);
    } else if k < k' {
      SuffixSeparated(hs, k, k');
    } else {
      SuffixSeparated(hs, k', k);
    }
  }

  /** Over a tabulated size matrix, the first row of every column ends at
      the sum of all row heights. */
  lemma TiledTopExtent(cells: Cells, sm: SizeMatrix, cols: seq<Attr>, ys: seq<Attr>,
                       ws: seq<int>, hs: seq<int>, i: nat)
    requires NoDup(cols) && NoDup(ys)
    requires Covers(cells, cols, ys) && Tabulates(sm, cols, ys, ws, hs)
    requires i < |cols| && 0 < |ys|
    ensures var c := PlaceColumns(cells, sm, cols, ys, 0)[cols[i]][ys[0]];
            c.position.y + c.size.height == Sum(hs)
  {
    var k := 0;
    PlaceColumnsTabulated(cells, sm, cols, ys, ws, hs, i, k);
    SumSuffixStep(hs, k);
    assert hs[k..] == hs;
  }

  /** Over a tabulated size matrix, the last column ends at the sum of all
      column widths. */
  lemma TiledRightExtent(cells: Cells, sm: SizeMatrix, cols: seq<Attr>, ys: seq<Attr>,
                         ws: seq<int>, hs: seq<int>, i: nat, k: nat)
    requires NoDup(cols) && NoDup(ys)
    requires Covers(cells, cols, ys) && Tabulates(sm, cols, ys, ws, hs)
    requires i + 1 == |cols| && k < |ys|
    ensures var c := PlaceColumns(cells, sm, cols, ys, 0)[cols[i]][ys[k]];
            c.position.x + c.size.width == Sum(ws)
  {
    PlaceColumnsTabulated(cells, sm, cols, ys, ws, hs, i, k);
    SumLast(ws);
  }

  /** The computed size matrix has column widths `ColumnWidths(g)` and row
      heights `RowHeights(g)`. */
  lemma SizeMatrixTabulates(g: Grid)
    requires Valid(g)
    requires |g.xCategories| == 0 || |g.yCategories| > 0
    ensures Tabulates(GetCellSizeMatrix(g), g.xCategories, g.yCategories, ColumnWidths(g), RowHeights(g))
  {
  }

  /** `updateCellsPosition`: computes and keeps the size matrix, then moves
      and resizes every cell; categories, node lists and the cell table's
      keys stay. The source fails when there are X categories but no Y
      categories (it then reads the width of an undefined entry). */
  function UpdateCellsPosition(g: Grid): (r: Grid)
    requires Valid(g)
    requires |g.xCategories| == 0 || |g.yCategories| > 0
    ensures Valid(r)
    ensures r.xCategories == g.xCategories && r.yCategories == g.yCategories
    ensures r.nodes == g.nodes && r.xPadding == g.xPadding && r.yPadding == g.yPadding
    ensures r.sizeMatrix.Some?
    ensures Tabulates(r.sizeMatrix.value, g.xCategories, g.yCategories, ColumnWidths(g), RowHeights(g))
    ensures forall x, y :: x in g.cells && y in g.cells[x] ==> SameContent(r.cells[x][y], g.cells[x][y])
  {
    var sm := GetCellSizeMatrix(g);
    SizeMatrixTabulates(g);
    var cells := PlaceColumns(g.cells, sm, g.xCategories, g.yCategories, 0);
    assert forall x, y :: x in g.cells && y in g.cells[x] ==> SameContent(cells[x][y], g.cells[x][y]) by {
      forall x, y | x in g.cells && y in g.cells[x]
        ensures SameContent(cells[x][y], g.cells[x][y])
      {
        var i :| 0 <= i < |g.xCategories| && g.xCategories[i] == x;
        var k :| 0 <= k < |g.yCategories| && g.yCategories[k] == y;
        PlaceColumnsAt(g.cells, sm, g.xCategories, g.yCategories, 0, i, k);
      }
    }
    g.(cells := cells, sizeMatrix := Some(sm))
  }

  /** The cell of `(xs[i], ys[k])` after positioning. */
  function PlacedCell(g: Grid, i: nat, k: nat): Cell
    requires Valid(g)
    requires |g.xCategories| == 0 || |g.yCategories| > 0
    requires i < |g.xCategories| && k < |g.yCategories|
  {
    UpdateCellsPosition(g).cells[g.xCategories[i]][g.yCategories[k]]
  }

  /** After positioning, the cell of `(xs[i], ys[k])` is at `x` = the sum of
      the widths of columns `0..i-1` and `y` = the sum of the heights of the
      rows after `k`, and takes its column's width and its row's height. */
  lemma PositionAfterUpdate(g: Grid, i: nat, k: nat)
    requires Valid(g)
    requires i < |g.xCategories| && k < |g.yCategories|
    ensures PlacedCell(g, i, k).position == Point(Sum(ColumnWidths(g)[..i]), Sum(RowHeights(g)[k + 1..]))
    ensures PlacedCell(g, i, k).size == Size(ColumnWidths(g)[i], RowHeights(g)[k])
  {
    ValidCovers(g);
    SizeMatrixTabulates(g);
    PlaceColumnsTabulated(g.cells, GetCellSizeMatrix(g), g.xCategories, g.yCategories, ColumnWidths(g), RowHeights(g), i, k);
  }

  /** A grid whose size matrix has been computed and covers its categories. */
  predicate Laid(g: Grid) {
    g.sizeMatrix.Some? && SizedFor(g.sizeMatrix.value, g.xCategories, g.yCategories)
  }

  /** `getTotalHeight`: the heights of the first column's entries, summed in
      Y order. */
  function GetTotalHeight(g: Grid): int
    requires Laid(g) && |g.xCategories| > 0
  {
    Sum(HeightsOf(g.sizeMatrix.value[g.xCategories[0]], g.yCategories))
  }

  /** `getTotalWidth`: the widths of the first row's entries, summed over the
      columns in X order; the size matrix has no columns at all when there
      are no Y categories. */
  function GetTotalWidth(g: Grid): int
    requires Laid(g)
  {
    if |g.yCategories| == 0 then 0
    else Sum(WidthsAt(g.sizeMatrix.value, g.xCategories, g.yCategories[0]))
  }

  /** The last Y category's row sits at `y = 0`. */
  lemma BottomRowAtOrigin(g: Grid, i: nat)
    requires Valid(g)
    requires i < |g.xCategories| && 0 < |g.yCategories|
    ensures PlacedCell(g, i, |g.yCategories| - 1).position.y == 0
  {
    ValidCovers(g);
    SizeMatrixTabulates(g);
    TiledBottomRow(g.cells, GetCellSizeMatrix(g), g.xCategories, g.yCategories, ColumnWidths(g), RowHeights(g), i);
  }

  /** Within each column the rows stack without gaps: each row sits right
      on top of the next one. */
  lemma RowsStackWithoutGaps(g: Grid, i: nat, k: nat)
    requires Valid(g)
    requires i < |g.xCategories| && k + 1 < |g.yCategories|
    ensures PlacedCell(g, i, k).position.y == PlacedCell(g, i, k + 1).position.y + PlacedCell(g, i, k + 1).size.height
  {
    ValidCovers(g);
    SizeMatrixTabulates(g);
    TiledRowsStack(g.cells, GetCellSizeMatrix(g), g.xCategories, g.yCategories, ColumnWidths(g), RowHeights(g), i, k);
  }

  /** The first X category's column sits at `x = 0`. */
  lemma FirstColumnAtOrigin(g: Grid, k: nat)
    requires Valid(g)
    requires 0 < |g.xCategories| && k < |g.yCategories|
    ensures PlacedCell(g, 0, k).position.x == 0
  {
    ValidCovers(g);
    SizeMatrixTabulates(g);
    TiledFirstColumn(g.cells, GetCellSizeMatrix(g), g.xCategories, g.yCategories, ColumnWidths(g), RowHeights(g), k);
  }

  /** Columns sit side by side without gaps: each column starts where the
      previous one ends. */
  lemma ColumnsSideBySide(g: Grid, i: nat, k: nat)
    requires Valid(g)
    requires i + 1 < |g.xCategories| && k < |g.yCategories|
    ensures PlacedCell(g, i + 1, k).position.x == PlacedCell(g, i, k).position.x + PlacedCell(g, i, k).size.width
  {
    ValidCovers(g);
    SizeMatrixTabulates(g);
    TiledColumnsAdjacent(g.cells, GetCellSizeMatrix(g), g.xCategories, g.yCategories, ColumnWidths(g), RowHeights(g), i, k);
  }

  /** Different cells never overlap after positioning. */
  lemma CellsDoNotOverlap(g: Grid, i: nat, k: nat, i': nat, k': nat)
    requires Valid(g)
    requires i < |g.xCategories| && k < |g.yCategories|
    requires i' < |g.xCategories| && k' < |g.yCategories|
    requires i != i' || k != k'
    ensures Disjoint(PlacedCell(g, i, k), PlacedCell(g, i', k'))
  {
    ValidCovers(g);
    SizeMatrixTabulates(g);
    TiledDisjoint(g.cells, GetCellSizeMatrix(g), g.xCategories, g.yCategories, ColumnWidths(g), RowHeights(g), i, k, i', k');
  }

  /** In a tabulated size matrix every column lists the row heights. */
  lemma TabulatedColumnHeights(sm: SizeMatrix, cols: seq<Attr>, ys: seq<Attr>, ws: seq<int>, hs: seq<int>, i: nat)
    requires Tabulates(sm, cols, ys, ws, hs) && i < |cols|
    ensures HeightsOf(sm[cols[i]], ys) == hs
  {
    var t := HeightsOf(sm[cols[i]], ys);
    forall k | 0 <= k < |ys| ensures t[k] == hs[k] {
      assert sm[cols[i]][ys[k]] == Size(ws[i], hs[k]);
    }
  }

  /** In a tabulated size matrix every row lists the column widths. */
  lemma TabulatedRowWidths(sm: SizeMatrix, cols: seq<Attr>, ys: seq<Attr>, ws: seq<int>, hs: seq<int>, k: nat)
    requires Tabulates(sm, cols, ys, ws, hs) && k < |ys|
    ensures WidthsAt(sm, cols, ys[k]) == ws
  {
    var t := WidthsAt(sm, cols, ys[k]);
    forall i | 0 <= i < |cols| ensures t[i] == ws[i] {
      assert sm[cols[i]][ys[k]] == Size(ws[i], hs[k]);
    }
  }

  /** After positioning, `getTotalHeight` is the sum of the row heights. */
  lemma TotalHeightAfterUpdate(g: Grid)
    requires Valid(g)
    requires |g.xCategories| > 0 && |g.yCategories| > 0
    ensures Laid(UpdateCellsPosition(g))
    ensures GetTotalHeight(UpdateCellsPosition(g)) == Sum(RowHeights(g))
  {
    ValidCovers(g);
    var r := UpdateCellsPosition(g);
    TabulatedColumnHeights(r.sizeMatrix.value, g.xCategories, g.yCategories, ColumnWidths(g), RowHeights(g), 0);
  }

  /** After positioning, `getTotalWidth` is the sum of the column widths. */
  lemma TotalWidthAfterUpdate(g: Grid)
    requires Valid(g)
    requires |g.xCategories| == 0 || |g.yCategories| > 0
    ensures Laid(UpdateCellsPosition(g))
    ensures GetTotalWidth(UpdateCellsPosition(g)) == Sum(ColumnWidths(g))
  {
    ValidCovers(g);
    var r := UpdateCellsPosition(g);
    if |g.yCategories| > 0 {
      TabulatedRowWidths(r.sizeMatrix.value, g.xCategories, g.yCategories, ColumnWidths(g), RowHeights(g), 0);
    } else {
      assert ColumnWidths(g) == [];
    }
  }

  /** The first row of every column ends at the sum of all row heights. */
  lemma TopRowExtent(g: Grid, i: nat)
    requires Valid(g)
    requires i < |g.xCategories| && |g.yCategories| > 0
    ensures PlacedCell(g, i, 0).position.y + PlacedCell(g, i, 0).size.height == Sum(RowHeights(g))
  {
    ValidCovers(g);
    SizeMatrixTabulates(g);
    TiledTopExtent(g.cells, GetCellSizeMatrix(g), g.xCategories, g.yCategories, ColumnWidths(g), RowHeights(g), i);
  }

  /** The first row of every column ends exactly at the total height. */
  lemma TopRowEndsAtTotalHeight(g: Grid, i: nat)
    requires Valid(g)
    requires i < |g.xCategories| && |g.yCategories| > 0
    ensures Laid(UpdateCellsPosition(g))
    ensures PlacedCell(g, i, 0).position.y + PlacedCell(g, i, 0).size.height == GetTotalHeight(UpdateCellsPosition(g))
  {
    TotalHeightAfterUpdate(g);
    TopRowExtent(g, i);
  }

  /** The last column ends at the sum of all column widths. */
  lemma LastColumnExtent(g: Grid, i: nat, k: nat)
    requires Valid(g)
    requires i + 1 == |g.xCategories| && k < |g.yCategories|
    ensures PlacedCell(g, i, k).position.x + PlacedCell(g, i, k).size.width == Sum(ColumnWidths(g))
  {
    ValidCovers(g);
    SizeMatrixTabulates(g);
    TiledRightExtent(g.cells, GetCellSizeMatrix(g), g.xCategories, g.yCategories, ColumnWidths(g), RowHeights(g), i, k);
  }

  /** The last column of every row ends exactly at the total width. */
  lemma LastColumnEndsAtTotalWidth(g: Grid, i: nat, k: nat)
    requires Valid(g)
    requires i + 1 == |g.xCategories| && k < |g.yCategories|
    ensures Laid(UpdateCellsPosition(g))
    ensures PlacedCell(g, i, k).position.x + PlacedCell(g, i, k).size.width == GetTotalWidth(UpdateCellsPosition(g))
  {
    TotalWidthAfterUpdate(g);
    LastColumnExtent(g, i, k);
  }
}

=== FILE: seqs.dfy ===
/** Small facts about sequences shared by the grid model: duplicate freedom,
    integer sums and first occurrences. */
module Seqs {

  /** No element occurs twice in `s`. */
  predicate NoDup<T(==)>(s: seq<T>) {
    forall i, j :: 0 <= i < j < |s| ==> s[i] != s[j]
  }

  /** Sum of a sequence of integers, left to right. */
  function Sum(s: seq<int>): int
    decreases |s|
  {
    if |s| == 0 then 0 else s[0] + Sum(s[1..])
  }

  lemma {:induction false} SumConcat(a: seq<int>, b: seq<int>)
    ensures Sum(a + b) == Sum(a) + Sum(b)
    decreases |a|
  {
    if |a| == 0 {
      assert a + b == b;
    } else {
      assert (a + b)[1..] == a[1..] + b;
      SumConcat(a[1..], b);
    }
  }

  /** Adding one more element at the end adds exactly that element. */
  lemma SumSnoc(s: seq<int>, v: int)
    ensures Sum(s + [v]) == Sum(s) + v
  {
    SumConcat(s, [v]);
    assert Sum([v]) == v + Sum([]);
  }

  /** A sum of non-negative terms is non-negative. */
  lemma {:induction false} SumNonNegative(s: seq<int>)
    requires forall i :: 0 <= i < |s| ==> s[i] >= 0
    ensures Sum(s) >= 0
    decreases |s|
  {
    if |s| > 0 {
      SumNonNegative(s[1..]);
    }
  }

  /** With non-negative terms a longer prefix never has a smaller sum. */
  lemma SumPrefixMonotone(s: seq<int>, i: nat, j: nat)
    requires i <= j <= |s|
    requires forall k :: 0 <= k < |s| ==> s[k] >= 0
    ensures Sum(s[..i]) <= Sum(s[..j])
  {
    assert s[..j] == s[..i] + s[i..j];
    SumConcat(s[..i], s[i..j]);
    SumNonNegative(s[i..j]);
  }

  /** Position of the first occurrence of `x` in `s`. */
  function FirstIndex<T(==)>(s: seq<T>, x: T): (i: nat)
    requires x in s
    ensures i < |s| && s[i] == x
    ensures forall j :: 0 <= j < i ==> s[j] != x
    decreases |s|
  {
    if s[0] == x then 0 else 1 + FirstIndex(s[1..], x)
  }

  /** Extending a sequence at the end keeps the first occurrence of an
      element already present. */
  lemma FirstIndexPrefix<T>(s: seq<T>, t: seq<T>, x: T)
    requires x in s
    ensures x in s + t
    ensures FirstIndex(s + t, x) == FirstIndex(s, x)
  {
    var i := FirstIndex(s, x);
    var k := FirstIndex(s + t, x);
    assert (s + t)[i] == x;
    assert k <= i;
    assert s[k] == (s + t)[k];
  }

  /** With non-negative terms a shorter suffix never has a larger sum. */
  lemma SumSuffixMonotone(s: seq<int>, i: nat, j: nat)
    requires i <= j <= |s|
    requires forall k :: 0 <= k < |s| ==> s[k] >= 0
    ensures Sum(s[j..]) <= Sum(s[i..])
  {
    assert s[i..] == s[i..j] + s[j..];
    SumConcat(s[i..j], s[j..]);
    SumNonNegative(s[i..j]);
  }

  /** A prefix one longer adds its last element. */
  lemma SumPrefixStep(s: seq<int>, i: nat)
    requires i < |s|
    ensures Sum(s[..i + 1]) == Sum(s[..i]) + s[i]
  {
    assert s[..i + 1] == s[..i] + [s[i]];
    SumSnoc(s[..i], s[i]);
  }

  /** A suffix one longer adds its first element. */
  lemma SumSuffixStep(s: seq<int>, k: nat)
    requires k < |s|
    ensures Sum(s[k..]) == s[k] + Sum(s[k + 1..])
  {
    assert s[k..][1..] == s[k + 1..];
  }

  /** With non-negative terms, the prefix sum up to and including `i` does
      not exceed the prefix sum before any later `j`. */
  lemma PrefixSeparated(s: seq<int>, i: nat, j: nat)
    requires i < j <= |s|
    requires forall k :: 0 <= k < |s| ==> s[k] >= 0
    ensures Sum(s[..i]) + s[i] <= Sum(s[..j])
  {
    SumPrefixStep(s, i);
    SumPrefixMonotone(s, i + 1, j);
  }

  /** With non-negative terms, the suffix sum from `j` on does not exceed
      the suffix sum after any earlier `i`. */
  lemma SuffixSeparated(s: seq<int>, i: nat, j: nat)
    requires i < j < |s|
    requires forall k :: 0 <= k < |s| ==> s[k] >= 0
    ensures Sum(s[j + 1..]) + s[j] <= Sum(s[i + 1..])
  {
    SumSuffixStep(s, j);
    SumSuffixMonotone(s, i + 1, j);
  }


  /** The whole sum is the sum before the last element plus that element. */
  lemma SumLast(s: seq<int>)
    requires |s| > 0
    ensures Sum(s) == Sum(s[..|s| - 1]) + s[|s| - 1]
  {
    SumPrefixStep(s, |s| - 1);
    assert s[..|s|] == s;
  }

  /** The multiset of a non-empty sequence is that of all but its last
      element, plus the last element. */
  lemma MultisetDropLast<T>(s: seq<T>)
    requires |s| > 0
    ensures multiset(s) == multiset(s[..|s| - 1]) + multiset{s[|s| - 1]}
  {
    assert s == s[..|s| - 1] + [s[|s| - 1]];
  }
}

=== FILE: utils.dfy ===
/** Dimension resolution: reading a node's category for one axis, either by
    calling an extractor function or by walking a dotted attribute path
    (src/utils.js). */
module Utils {
  import opened Wrappers

  /** A value a category can take: a leaf string, an object whose named
      fields hold further attributes, or JavaScript's `undefined`. A field
      holding `undefined` reads as absent; only an extractor can hand
      `undefined` back as a category. */
  datatype Attr = Text(text: string) | Record(fields: map<string, Attr>) | Undef

  /** A graph node; `data` is what the host's `node.data()` returns. */
  datatype Node = Node(id: int, data: Attr)

  /** How an axis classifies nodes: a dotted attribute path such as
      `"meta.kind"`, or an extractor function. An extractor answers `None`
      for `null` and `Some(Undef)` for `undefined`. */
  datatype Dimension = Path(path: string) | Extractor(extract: Node -> Option<Attr>)

  const Separator: char := '.'

  /** How many times `c` occurs in `s`. */
  function Occurrences(s: string, c: char): nat
    decreases |s|
  {
    if |s| == 0 then 0 else (if s[0] == c then 1 else 0) + Occurrences(s[1..], c)
  }

  /** `path.split('.')`: the pieces between separators, always at least one
      (an empty string splits into one empty piece). */
  function Split(s: string): (parts: seq<string>)
    ensures |parts| == Occurrences(s, Separator) + 1
    decreases |s|
  {
    if |s| == 0 then [""]
    else
      var rest := Split(s[1..]);
      if s[0] == Separator then [""] + rest
      else [[s[0]] + rest[0]] + rest[1..]
  }

  /** No piece of a split path contains a separator. */
  lemma {:induction false} SplitSeparatorFree(s: string)
    ensures forall k :: 0 <= k < |Split(s)| ==> Separator !in Split(s)[k]
    decreases |s|
  {
    if |s| > 0 {
      SplitSeparatorFree(s[1..]);
      var rest := Split(s[1..]);
      if s[0] != Separator {
        var first := [s[0]] + rest[0];
        assert Separator !in rest[0];
        assert forall c :: c in first ==> c == s[0] || c in rest[0];
        assert Split(s) == [first] + rest[1..];
      }
    }
  }

  /** `parts.join('.')`, the inverse of `Split`. */
  function Join(parts: seq<string>): string
    requires |parts| >= 1
    decreases |parts|
  {
    if |parts| == 1 then parts[0] else parts[0] + [Separator] + Join(parts[1..])
  }

  /** Splitting and joining again gives back the path. */
  lemma {:induction false} JoinSplit(s: string)
    ensures Join(Split(s)) == s
    decreases |s|
  {
    if |s| > 0 {
      var rest := Split(s[1..]);
      JoinSplit(s[1..]);
      if s[0] == Separator {
        assert Split(s)[1..] == rest;
        assert s == [s[0]] + s[1..];
      } else {
        var parts := Split(s);
        if |rest| == 1 {
          assert parts == [[s[0]] + rest[0]];
          assert s == [s[0]] + s[1..];
        } else {
          assert parts[1..] == rest[1..];
          assert Join(rest) == rest[0] + [Separator] + Join(rest[1..]);
          assert s == [s[0]] + s[1..];
        }
      }
    }
  }

  /** Splitting a path that starts with `c`: a separator opens a new empty
      piece, any other character joins the first piece of the rest. */
  lemma SplitCons(c: char, t: string, s: string)
    requires s == [c] + t
    ensures Split(s) == if c == Separator then [""] + Split(t) else [[c] + Split(t)[0]] + Split(t)[1..]
  {
    assert s[0] == c && s[1..] == t;
  }

  lemma ConsFirstAppend(c: char, a: seq<string>, b: seq<string>)
    requires |a| >= 1
    ensures [[c] + (a + b)[0]] + (a + b)[1..] == ([[c] + a[0]] + a[1..]) + b
  {
    assert (a + b)[0] == a[0];
    assert (a + b)[1..] == a[1..] + b;
  }

  /** Moving the first character of the first piece out of a join. */
  lemma JoinPeel(parts: seq<string>, parts': seq<string>)
    requires |parts| >= 1 && |parts[0]| > 0
    requires parts' == [parts[0][1..]] + parts[1..]
    ensures Join(parts) == [parts[0][0]] + Join(parts')
  {
    var p := parts[0];
    assert p == [p[0]] + p[1..];
    if |parts| > 1 {
      assert parts'[1..] == parts[1..];
    }
  }

  /** Joining separator-free pieces and splitting again gives back the
      pieces. */
  lemma {:induction false} SplitJoin(parts: seq<string>)
    requires |parts| >= 1
    requires forall k :: 0 <= k < |parts| ==> Separator !in parts[k]
    ensures Split(Join(parts)) == parts
    decreases |parts|, |parts[0]|
  {
    var p := parts[0];
    if |p| == 0 {
      if |parts| > 1 {
        SplitJoin(parts[1..]);
        assert Join(parts) == [Separator] + Join(parts[1..]);
        SplitCons(Separator, Join(parts[1..]), Join(parts));
        assert parts == [""] + parts[1..];
      }
    } else {
      var parts' := [p[1..]] + parts[1..];
      assert forall k :: 0 <= k < |parts'| ==> Separator !in parts'[k] by {
        forall k | 0 <= k < |parts'| ensures Separator !in parts'[k] {
          if k == 0 {
            assert forall c :: c in p[1..] ==> c in p;
          } else {
            assert parts'[k] == parts[k];
          }
        }
      }
      SplitJoin(parts');
      JoinPeel(parts, parts');
      assert p[0] in p;
      SplitCons(p[0], Join(parts'), Join(parts));
      assert p == [p[0]] + p[1..];
      assert parts == [[p[0]] + parts'[0]] + parts'[1..];
    }
  }

  /** Taking the first character off `p.q` leaves `p[1..].q`. */
  lemma DropConcat(p: string, q: string)
    requires |p| > 0
    ensures (p + [Separator] + q)[0] == p[0]
    ensures (p + [Separator] + q)[1..] == p[1..] + [Separator] + q
  {
  }

  /** Splitting `.q`: an empty first piece, then the pieces of `q`. */
  lemma SplitLeadingSeparator(p: string, q: string)
    requires |p| == 0
    ensures Split(p + [Separator] + q) == [""] + Split(q)
  {
    assert p + [Separator] + q == [Separator] + q;
    SplitCons(Separator, q, p + [Separator] + q);
  }

  /** Splitting `p.q` splits `p` and `q` separately. */
  lemma {:induction false} SplitConcat(p: string, q: string)
    ensures Split(p + [Separator] + q) == Split(p) + Split(q)
    decreases |p|
  {
    if |p| == 0 {
      SplitLeadingSeparator(p, q);
    } else {
      DropConcat(p, q);
      SplitConcat(p[1..], q);
      if p[0] == Separator {
        assert [""] + (Split(p[1..]) + Split(q)) == ([""] + Split(p[1..])) + Split(q);
      } else {
        ConsFirstAppend(p[0], Split(p[1..]), Split(q));
      }
    }
  }

  /** One property access `value[name]`; `None` stands for an `undefined`
      result, whether the field is missing or holds `undefined`. Leaf strings
      are treated as having no properties. */
  function Field(v: Attr, name: string): Option<Attr>
  {
    match v
    case Record(fields) => if name in fields && fields[name] != Undef then Some(fields[name]) else None
    case Text(_) => None
    case Undef => None
  }

  /** Resolution of the path segments one at a time from `v`: the first
      absent segment gives `None`, otherwise the value reached last. */
  function Walk(v: Attr, segments: seq<string>): (r: Option<Attr>)
    ensures |segments| > 0 && r.Some? ==> r.value != Undef
    decreases |segments|
  {
    if |segments| == 0 then Some(v)
    else
      match Field(v, segments[0])
      case None => None
      case Some(w) => Walk(w, segments[1..])
  }

  /** Continues a walk from an optional starting point; absence propagates. */
  function Then(start: Option<Attr>, segments: seq<string>): Option<Attr> {
    match start
    case None => None
    case Some(v) => Walk(v, segments)
  }

  /** Walking `a` then `b` is walking `a + b`, with absence propagating. */
  lemma {:induction false} WalkConcat(v: Attr, a: seq<string>, b: seq<string>)
    ensures Walk(v, a + b) == Then(Walk(v, a), b)
    decreases |a|
  {
    if |a| == 0 {
      assert a + b == b;
    } else {
      assert (a + b)[0] == a[0];
      assert (a + b)[1..] == a[1..] + b;
      match Field(v, a[0])
      case None =>
      case Some(w) => WalkConcat(w, a[1..], b);
    }
  }

  /** One more segment: absent if the walk so far was absent, otherwise one
      more property access. */
  lemma WalkStep(v: Attr, segments: seq<string>, name: string)
    ensures Walk(v, segments + [name]) == match Walk(v, segments)
                                         case None => None
                                         case Some(w) => Field(w, name)
  {
    WalkConcat(v, segments, [name]);
    match Walk(v, segments)
    case None =>
    case Some(w) =>
      assert [name][1..] == [];
      match Field(w, name)
      case None =>
      case Some(u) => assert Walk(u, []) == Some(u);
  }

  /** A segment that is absent at some step makes the whole walk absent,
      whatever segments follow it. */
  lemma WalkAbsentSegment(v: Attr, segments: seq<string>, i: nat)
    requires i < |segments|
    requires Walk(v, segments[..i]).Some?
    requires Field(Walk(v, segments[..i]).value, segments[i]).None?
    ensures Walk(v, segments) == None
  {
    WalkStep(v, segments[..i], segments[i]);
    assert segments[..i + 1] == segments[..i] + [segments[i]];
    assert segments == segments[..i + 1] + segments[i + 1..];
    WalkConcat(v, segments[..i + 1], segments[i + 1..]);
  }

  /** The category of `node` on the axis `dim`, as a mathematical function.
      A path never yields `undefined`: the walk turns it into `null`. */
  function Resolve(node: Node, dim: Dimension): (r: Option<Attr>)
    ensures dim.Path? && r.Some? ==> r.value != Undef
  {
    match dim
    case Extractor(f) => f(node)
    case Path(p) => Walk(node.data, Split(p))
  }

  /** Resolving the path `p.q` resolves `q` from wherever `p` led, and is
      absent when `p` already was. */
  lemma ResolvePathConcat(node: Node, p: string, q: string)
    ensures Resolve(node, Path(p + [Separator] + q)) == Then(Resolve(node, Path(p)), Split(q))
  {
    SplitConcat(p, q);
    WalkConcat(node.data, Split(p), Split(q));
  }

  /** `getNodeCategory`: the extractor's own answer, or the segment-by-segment
      walk from `node.data()` with an early `null` on the first absent
      segment. */
  method GetNodeCategory(node: Node, dim: Dimension) returns (r: Option<Attr>)
    ensures dim.Extractor? ==> r == dim.extract(node)
    ensures dim.Path? ==> r == Walk(node.data, Split(dim.path))
  {
    if dim.Extractor? {
      return dim.extract(node);
    }
    var parts := Split(dim.path);
    var value := node.data;
    var i := 0;
    while i < |parts|
      invariant 0 <= i <= |parts|
      invariant Walk(node.data, parts[..i]) == Some(value)
    {
      var next := Field(value, parts[i]);
      WalkStep(node.data, parts[..i], parts[i]);
      assert parts[..i + 1] == parts[..i] + [parts[i]];
      if next.None? {
        WalkAbsentSegment(node.data, parts, i);
        return None;
      }
      value := next.value;
      i := i + 1;
    }
    assert parts[..i] == parts;
    return Some(value);
  }
}

=== FILE: wrappers.dfy ===
/** Values that may be absent. */
module Wrappers {

  /** An optional value; for a resolved category, `None` is JavaScript's
      `null`. */
  datatype Option<T> = None | Some(value: T)
}
